=== FILE: README.md ===
# Stealth activation: a Dafny model

This project models the core of a Rust library that makes an automated
Chrome session harder to detect. Its entry point, `activate_stealth`, takes
a WebDriver session and eight optional settings. It registers a fixed
sequence of JavaScript "evasions" with the browser through the Chrome
DevTools Protocol. Each evasion is a template file, rendered by `evaluate`
into a self-invoking script `(<template>)(<arg>,<arg>,...)` and sent as
`Page.addScriptToEvaluateOnNewDocument`. In the middle of the sequence the
user agent is overridden with `Network.setUserAgentOverride`. When no user
agent is supplied, it is first fetched with `Browser.getVersion`. Every
step is awaited with `?`, so the first failure ends the activation.

The model is functional:

- `Wrappers`: `Option` and `unwrap_or` (`GetOr`).
- `Strings`: `join`, and its inverse `Split`; Rust's `str::trim` (the
  Unicode White_Space set) with an independent characterisation
  (`TrimUnique`); and Rust's `str::replace` as one left-to-right pass.
- `Json`: the two JSON value kinds the evasions pass (`json!(bool)` and
  `json!(&str)`), their literal text as `Value::to_string` writes it, and
  a small reader for that text, which is the writer's round-trip partner.
- `Render`: `evaluate`, and `ArgsOf`, which reads the arguments back out of
  a rendered script.
- `Stealth`: the request, one step function per evasion function of the
  source, the plan of steps, and the execution. The session is a
  transport function `(commands issued so far, next command) -> reply`.
  The templates are a map from path to text.
- `ActivationSpec`: an independent reference. It spells out the exact
  command list of a successful activation (`ExpectedTrace`) and a
  fail-fast runner over a fixed command list (`RunCmds`). It then proves
  that `Stealth.Activate` is that runner applied to that list, apart from
  one panic case. Ordering, fail-fast, the conditional steps, default
  resolution and the user-agent rewrite all follow from that theorem.

How the source's effects are represented:

- A reply `Err(e)` from the session becomes the outcome `Failed(e)`.
- A panic becomes `Panicked(message)`. There are two panics. One is
  `expect` on a template file that cannot be opened (src/lib.rs:196). Its
  message starts with `Failed reading <path>`, and the model keeps only
  that part. The other is `unwrap` on a version reply without a
  `userAgent` field (src/lib.rs:130).
- A template is read only when its step is reached. The hairline template
  in particular is never read when the fix is turned off.
- A rejected `Browser.getVersion` is an `Err` like any other command.

Where the intended behaviour and the code disagree, the model follows
the code:

- A fetched user agent keeps its JSON quotes (see "## Findings").
- An error is meant to identify the failing step. The
  code's `Err` carries only the transport's own error. In the model the
  failing command is the last one in the trace (`ActivateFailFast`).

## Model

Positions in a trace are counted from 0: the first registration is
position 0, and without a supplied user agent the version query is
position 10 and the override position 11. Every activation theorem
assumes that every template the activation reads is available, except
`MissingTemplateAborts` and `MissingTemplateTraceIsPrefix`, which are about
a template that is not.

| member | source | states |
|---|---|---|
| Wrappers.Option.GetOr | src/lib.rs:33 | Rust's `Option::unwrap_or`: the carried value when present, the default otherwise. It is used for every default at src/lib.rs:33, 55, 80, 104, 121, 124 and 156-157, where `ActivationSpec.StepsResolveDefaults` and `ActivationSpec.HairlineUnlessTurnedOff` restate each use without it. |
| Strings.Join | src/lib.rs:121-122 | `join(",")`. Its meaning is given by `Strings.SplitJoin`, which inverts it. |
| Strings.SplitJoin | src/lib.rs:121-122 | Cutting a comma-joined list at the commas gives back exactly the parts, in order, when the list has at least one part and no part contains a comma. (An empty list joins to empty text, which splits into one empty part.) |
| Strings.Trim | src/lib.rs:135 | The trimmed text is no longer than the input, and it neither starts nor ends with a White_Space character. |
| Strings.TrimUnique | src/lib.rs:135 | Trimming whitespace + m + whitespace gives exactly m, when m has no whitespace at either end. This characterises `trim` without reference to how it is computed. |
| Strings.TrimIdempotent | src/lib.rs:135 | Trimming twice is the same as trimming once. |
| Strings.ReplaceAll | src/lib.rs:134 | `str::replace`: one left-to-right pass replacing non-overlapping occurrences. `ReplaceAllAbsent` and `ReplaceAllFirstMatch` determine it on every input, because `LeftmostMatch` splits any text holding the pattern at its leftmost occurrence. `ReplaceAllAtFront`, `ReplaceAllKeepsFirst` and `ReplaceAllKeepsLast` are special cases. |
| Strings.ReplaceAllAbsent | src/lib.rs:134 | For a non-empty pattern, text with no occurrence of the pattern comes back unchanged. |
| Strings.ReplaceAllAtFront | src/lib.rs:134 | For a non-empty pattern, a leading occurrence is replaced and the scan resumes after it. The replacement is never rescanned, so there is a single pass. |
| Strings.ReplaceAllKeepsFirst | src/lib.rs:134 | For a non-empty pattern, a first character that is not in the pattern survives in place. |
| Strings.ReplaceAllKeepsLast | src/lib.rs:134 | For a non-empty pattern, a last character that is not in the pattern survives in place, because no match can straddle it. |
| Strings.ReplaceAllFirstMatch | src/lib.rs:134 | For a non-empty pattern, in `u + pat + v` where no occurrence starts inside `u` (`NoMatchStartsIn`), `u` is kept, that occurrence is replaced, and the scan resumes on `v`. |
| Strings.LeftmostMatch | src/lib.rs:134 | Text holding a non-empty pattern has an occurrence at some index i with none starting before i, so it is `u + pat + v` as `ReplaceAllFirstMatch` needs. |
| Json.StringValues | src/lib.rs:80-84 | Each language tag becomes one JSON string value, with the same count and order. |
| Json.Literal | src/lib.rs:205-208 | `Value::to_string` for a bool or string value, also used on the version reply at src/lib.rs:130. Its meaning is given by `Json.LiteralReads`, which reads it back. |
| Json.LiteralReads | src/lib.rs:205-208 | The literal text `to_string` writes for a bool or string value reads back as that value, whatever follows it. |
| Json.EscapePlain | src/lib.rs:207 | A string without quotes, backslashes or control characters is written unescaped between its quotes. |
| Render.Evaluate | src/lib.rs:203-214 | `evaluate`: the template wrapped as `(code)(args)`. Its meaning is given by `Render.EvaluateRoundTrip` and `Render.EvaluateInjective`. |
| Render.Literals | src/lib.rs:205-208 | One literal per argument, in argument order, each the argument's JSON text. |
| Render.ArgListRoundTrip | src/lib.rs:204-209 | The comma-joined literals read back as exactly the argument list. The empty list gives empty text with no stray comma. |
| Render.EvaluateRoundTrip | src/lib.rs:203-214 | A rendered script is `(code)(...)`, and its argument list reads back as exactly the given arguments. With `None` it reads back as no arguments. |
| Render.EvaluateInjective | src/lib.rs:203-214 | Two argument lists that render to the same script are equal: rendering loses no argument and reorders none. |
| Render.EvaluateNoArgs | src/lib.rs:210-213 | `None` renders as `(code)()`, the same as an empty list, four characters longer than the template. |
| Stealth.RewriteUserAgent | src/lib.rs:134-135 | The sent user agent is wrapped in one pair of parentheses, and the part inside is already trimmed. |
| Stealth.Issue | src/lib.rs:186-191 | The command joins the trace whether accepted or not. The outcome is success exactly when the session accepts, and otherwise carries the session's reason. |
| Stealth.ExecStep | src/lib.rs:115-193 | A step only appends to the trace; commands already issued are never rewritten. |
| Stealth.RunSteps | src/lib.rs:19-36 | Running steps only appends to the trace. |
| Stealth.ChromeRuntime | src/lib.rs:51-64 | The runtime step with its flag defaulted to false. Its meaning is given by `ActivationSpec.StepsResolveDefaults`. |
| Stealth.NavigatorLanguages | src/lib.rs:76-88 | The languages step, one argument per tag, defaulting to en-US and en. Its meaning is given by `ActivationSpec.StepsResolveDefaults`. |
| Stealth.NavigatorVendor | src/lib.rs:100-108 | The vendor step, defaulting to Google Inc. Its meaning is given by `ActivationSpec.StepsResolveDefaults`. |
| Stealth.UserAgentOverride | src/lib.rs:115-124 | The user-agent step with the comma-joined languages and the platform defaulted to None. Its meaning is given by `ActivationSpec.StepsResolveDefaults`. |
| Stealth.WebglVendorOverride | src/lib.rs:151-166 | The WebGL step, defaulting to Intel Inc. and Intel Iris OpenGL Engine. Its meaning is given by `ActivationSpec.StepsResolveDefaults`. |
| Stealth.HairlineEnabled | src/lib.rs:33 | `fix_hairline.unwrap_or(true)`. Its meaning is given by `ActivationSpec.HairlineUnlessTurnedOff`, and its effect by `ActivationSpec.PlanShape` and `ActivationSpec.ActivateHairline`. |
| Stealth.Plan | src/lib.rs:19-36 | The steps of one activation in source order: `WithUtils`, `ChromeApp`, `ChromeRuntime`, `IframeContentWindow`, `MediaCodecs`, `NavigatorLanguages`, `NavigatorPermissions`, `NavigatorPlugins`, `NavigatorVendor`, `NavigatorWebdriver`, then the user-agent step, `WebglVendorOverride`, `WindowOuterdimensions` and, when `HairlineEnabled`, `HairlineFix` (the step functions of src/lib.rs:41-176). Its shape is given by `ActivationSpec.PlanShape`, and the commands it issues by `ActivationSpec.ActivateIsExpectedRun`. |
| Stealth.Activate | src/lib.rs:6-39 | `activate_stealth`. Its meaning is given by `ActivationSpec.ActivateIsExpectedRun` and the theorems after it. |
| ActivationSpec.StepsResolveDefaults | src/lib.rs:51-166 | Each parameterised step carries the supplied value, or the documented default when none is supplied: runtime flag true only when asked for, languages en-US and en, vendor Google Inc., platform the text None, WebGL Intel Inc. and Intel Iris OpenGL Engine. The defaults are written out, not taken from `unwrap_or`. |
| ActivationSpec.HairlineUnlessTurnedOff | src/lib.rs:33 | The hairline fix is applied exactly when `fix_hairline` is not `Some(false)`: when it is `None` or `Some(true)`. |
| ActivationSpec.PlanShape | src/lib.rs:19-36 | The plan has 14 steps, 13 when the hairline fix is turned off. The user-agent step is at index 10, every other step registers a template, and the hairline fix, when present, is last. |
| ActivationSpec.ActivateIsExpectedRun | src/lib.rs:6-39 | With every template the activation reads available, activation is the fail-fast run of the 13-, 14- or 15-command reference trace. The one exception: a version reply without a user agent panics right after the query. |
| ActivationSpec.ActivateTraceIsPrefix | src/lib.rs:19-36 | With every template the activation reads available, whatever the session answers, the commands issued are a prefix of the reference trace, so the order is fixed whichever settings are supplied. |
| ActivationSpec.ActivateFailFast | src/lib.rs:19-36 | On failure, the last command issued is the one the session rejected, with the reported reason, and every earlier command was accepted. |
| ActivationSpec.ActivateSucceeds | src/lib.rs:16-39 | Activation succeeds exactly when the session accepts every command of the reference trace and the version reply has a user agent. It then has issued exactly that trace. |
| ActivationSpec.ActivatePanics | src/lib.rs:126-132 | With every template the activation reads available, the activation panics exactly when all ten registrations are accepted and the version reply lacks `userAgent`. The trace then ends with the query. |
| ActivationSpec.MissingTemplateAborts | src/lib.rs:178-196 | If the template of step k cannot be read, the activation panics with `Failed reading <path>` on reaching that step. If every earlier command was accepted (and the version reply, if asked for, had a user agent), it has issued exactly the first commands of the reference trace, one per earlier registration plus the query and override. Otherwise it ends earlier, exactly as it would with every template present. |
| ActivationSpec.MissingTemplateTraceIsPrefix | src/lib.rs:19-36 | Even when a template cannot be read, the commands issued are a prefix of the reference trace. |
| ActivationSpec.PlanPrefixRuns | src/lib.rs:19-32 | The first k steps run as the first commands of the reference trace, apart from the panic on a version reply without a user agent. |
| ActivationSpec.ExpectedMethods | src/lib.rs:126-191 | Every command of the reference trace goes out under its protocol method: `Browser.getVersion` at position 10 when no user agent is supplied, `Network.setUserAgentOverride` at position 11 then and at 10 otherwise, `Page.addScriptToEvaluateOnNewDocument` everywhere else. |
| ActivationSpec.ActivateQueriesVersion | src/lib.rs:126-132 | `Browser.getVersion` is issued only when no user agent was supplied. On success it is issued exactly then. |
| ActivationSpec.ActivateHairline | src/lib.rs:33-36 | A successful trace has 13 commands, plus 1 for the version query, plus 1 unless the hairline fix is explicitly turned off. The hairline fix, when present, is last. |
| ActivationSpec.RegisterArgs | src/lib.rs:178-191 | A registration hands its template exactly the arguments it was given. |
| ActivationSpec.ActivateResolvesSettings | src/lib.rs:51-166 | In a successful activation, each setting is the supplied value when given and the documented default otherwise: runtime flag false, languages en-US and en, vendor Google Inc., WebGL Intel Inc. and Intel Iris OpenGL Engine, platform None. The override carries the comma-joined languages. |
| ActivationSpec.ActivateLanguagesAgree | src/lib.rs:121-122 | In a successful activation, the languages script and the Accept-Language header come from the same list. When the list has at least one tag and no tag contains a comma, splitting the header at commas gives exactly the script's arguments. (An empty list gives header text that splits into one empty tag, and a tag with a comma splits apart.) |
| ActivationSpec.DefaultActivation | src/lib.rs:19-36 | With nothing supplied, a successful activation issues 15 commands with the default arguments, the version query at position 10, the override at position 11 with header en-US,en with platform None, and the hairline fix last. |
| ActivationSpec.VendorChangesOnlyVendor | src/lib.rs:100-108 | Supplying a vendor changes the reference trace in the vendor registration only. |
| ActivationSpec.VendorOnlyActivation | src/lib.rs:100-108 | A successful activation of a request that supplies only a vendor registers it as the single argument. Every other command equals the all-defaults trace. |
| ActivationSpec.RewriteCleanUserAgent | src/lib.rs:134-135 | A user agent with no headless marker and no surrounding whitespace is only wrapped in parentheses. |
| ActivationSpec.RewriteSuppliedHeadless | src/lib.rs:126-135 | A supplied `<pre>HeadlessChrome<rest>` is sent as `(<pre>Chrome<rest>)`, when no `HeadlessChrome` starts inside pre, rest holds none, pre does not start with whitespace and rest does not end with it. (Surrounding whitespace is trimmed, and further markers are replaced too.) |
| ActivationSpec.RewriteDesktopHeadless | src/lib.rs:126-135 | A supplied `Mozilla/5.0 (X11; Linux x86_64) HeadlessChrome/100.0 Safari/537.36` is sent as `(Mozilla/5.0 (X11; Linux x86_64) Chrome/100.0 Safari/537.36)`. |
| ActivationSpec.RewriteFetched | src/lib.rs:129-135 | A fetched user agent is rewritten inside its JSON quotes: `("<escaped text, marker replaced>")`. |
| ActivationSpec.RewriteFetchedHeadless | src/lib.rs:129-135 | A fetched `<pre>HeadlessChrome<rest>` becomes `("<pre>Chrome<rest>")`, when pre and rest are plain (no quote, backslash or control character), no `HeadlessChrome` starts inside pre and rest holds none. |
| ActivationSpec.FetchedHeadlessActivation | src/lib.rs:115-146 | With nothing supplied and a version reply whose `userAgent` field is `<pre>HeadlessChrome<rest>`, whatever other fields the reply has, a successful activation's override is `("<pre>Chrome<rest>")`, `en-US,en`, `None`. Conditions on pre and rest as for `RewriteFetchedHeadless`. |
| ActivationSpec.IntendedFetchedHeadless | src/lib.rs:129-135 | With the intended unquoted read, a reply of `<pre>HeadlessChrome<rest>` is sent as `(<pre>Chrome<rest>)`, under the conditions of `RewriteSuppliedHeadless`. |
| ActivationSpec.FetchedQuotesDiffer | src/lib.rs:130 | For every such reply with plain pre and rest, the read as written and the intended read send different user agents. |

## Left out

- The WebDriver and DevTools connection, `async`/`await` and the network.
  They are replaced by the transport function. Suspension and
  cancellation are not modelled.
- `read_file` and the file system. Templates are a map from path to text,
  and a missing path is the `expect` panic of src/lib.rs:196. The later
  `expect` at src/lib.rs:183 is not modelled: it can only fire when
  `read_to_string` fails after the file was opened, for example on a file
  that is not UTF-8.
- The content of the JavaScript templates under `js/`, which the core
  treats as opaque text.
- JSON values other than booleans and strings. The evasions pass no
  others. The reply of `Browser.getVersion` is modelled as a map to these
  two kinds, so a non-string `userAgent` field is not covered.
- `evaluate` returns `Ok` unconditionally in the source, so the model
  returns the text itself.
- The repository's binary (src/main.rs) and example program
  (examples/hidden.rs). After activation, both read the page's layout
  metrics with `Page.getLayoutMetrics` and set a viewport with
  `Emulation.setDeviceMetricsOverride` (src/main.rs:39-60). That
  device-metrics override is theirs, not part of `activate_stealth`, so
  it is not modelled. The example calls `stealth::activate`, a name
  src/lib.rs does not define.
- The exact JSON shape of the parameter objects sent with each command.
  A command records its method and its parameter values.
- Json.LiteralReads: the reader is a partner for the writer's output only.
  It is not a full JSON parser: numbers, nulls, arrays, objects and
  whitespace between tokens are not read.
- ActivationSpec.MissingTemplateAborts: the panic message is only the
  `expect` text `Failed reading <path>`. Rust's `expect` appends `: ` and
  the debug form of the I/O error, which the model does not have because
  the file system is left out.
- ActivationSpec.ActivateTraceIsPrefix: assumes every template the
  activation reads is available. Runs that stop on a missing template are
  covered by `MissingTemplateTraceIsPrefix` instead.
- ActivationSpec.DefaultActivation: states the user agent of the override (position 11)
  as the resolved one, not a fixed text. The text depends on the session's
  version reply, which `FetchedHeadlessActivation` covers for replies whose
  user agent holds the headless marker once.

## Findings

| source | as written | input that shows it | evidently intended | confidence | as-written member | corrected member |
|---|---|---|---|---|---|---|
| src/lib.rs:130 | The fetched user agent is read with `Value::to_string`, which writes the JSON string literal, quotes included. | A version reply whose `userAgent` is `HeadlessChrome/100.0`, with no user agent supplied: the override carries `("Chrome/100.0")`. | The string's own text (`as_str`), giving `(Chrome/100.0)` like a supplied user agent. | high, not executed | ActivationSpec.FetchedHeadlessActivation | ActivationSpec.IntendedFetchedHeadless |

`ActivationSpec.FetchedQuotesDiffer` shows that the two reads disagree on
every such reply. The activation model keeps the read as written, so
that its theorems describe what the code does; `UserAgentTextOf` is the
corrected read.

=== FILE: activation_spec.dfy ===
/** What an activation does, stated independently of how the model computes
    it: the exact command list of a fully successful activation, written out
    in the order src/lib.rs:19-36 issues it, and a fail-fast runner over a
    fixed command list. The theorems show that `Stealth.Activate` is that
    runner applied to that list (or, in the one panic case, stops at the
    version query), and derive ordering, fail-fast, the conditional steps
    and default resolution from it. */
module ActivationSpec {
  import opened Wrappers
  import Strings
  import opened Json
  import Render
  import opened Stealth

  // ---------------------------------------------------------------------------
  // Reference definitions
  // ---------------------------------------------------------------------------

  /** Every template the activation reads is available; the hairline
      template is read only when the fix is applied (src/lib.rs:33-36). */
  predicate Complete(req: Request, templates: map<string, string>)
  {
    && UtilsJs in templates && ChromeAppJs in templates && ChromeRuntimeJs in templates
    && IframeContentWindowJs in templates && MediaCodecsJs in templates
    && NavigatorLanguagesJs in templates && NavigatorPermissionsJs in templates
    && NavigatorPluginsJs in templates && NavigatorVendorJs in templates
    && NavigatorWebdriverJs in templates && WebglVendorJs in templates
    && WindowOuterdimensionsJs in templates
    && (HairlineEnabled(req) ==> HairlineFixJs in templates)
  }

  /** Registration of the template at `path` with `args`. */
  function Register(templates: map<string, string>, path: string,
                    args: Option<seq<Value>>): Command
    requires path in templates
  {
    AddScript(Render.Evaluate(templates[path], args))
  }

  /** The language list both the languages script and the header use. */
  function LanguagesOf(req: Request): seq<string>
  {
    req.languages.GetOr(["en-US", "en"])
  }

  /** Items 1-10: the registrations before the user-agent override. */
  function ExpectedPrefix(req: Request, templates: map<string, string>): (p: seq<Command>)
    requires Complete(req, templates)
    ensures |p| == 10
  {
    [ Register(templates, UtilsJs, None),
      Register(templates, ChromeAppJs, None),
      Register(templates, ChromeRuntimeJs, Some([JBool(req.runOnInsecureOrigins.GetOr(false))])),
      Register(templates, IframeContentWindowJs, None),
      Register(templates, MediaCodecsJs, None),
      Register(templates, NavigatorLanguagesJs, Some(StringValues(LanguagesOf(req)))),
      Register(templates, NavigatorPermissionsJs, None),
      Register(templates, NavigatorPluginsJs, None),
      Register(templates, NavigatorVendorJs, Some([JString(req.vendor.GetOr("Google Inc."))])),
      Register(templates, NavigatorWebdriverJs, None) ]
  }

  /** Item 11 (only without a supplied user agent) and item 12: the version
      query and the override carrying the final user agent `ua`. */
  function ExpectedOverride(req: Request, ua: string): seq<Command>
  {
    (if req.userAgent.None? then [GetVersion] else [])
    + [SetUserAgent(ua, Strings.Join(",", LanguagesOf(req)), req.platform.GetOr("None"))]
  }

  /** Items 13-15: WebGL, outer dimensions, and the hairline fix unless it
      is turned off. */
  function ExpectedSuffix(req: Request, templates: map<string, string>): seq<Command>
    requires Complete(req, templates)
  {
    [ Register(templates, WebglVendorJs,
               Some([JString(req.webglVendor.GetOr("Intel Inc.")),
                     JString(req.renderer.GetOr("Intel Iris OpenGL Engine"))])),
      Register(templates, WindowOuterdimensionsJs, None) ]
    + (if req.fixHairline != Some(false) then [Register(templates, HairlineFixJs, None)] else [])
  }

  /** The full command list of a successful activation whose final user
      agent is `ua`. */
  function ExpectedTrace(req: Request, templates: map<string, string>, ua: string): seq<Command>
    requires Complete(req, templates)
  {
    ExpectedPrefix(req, templates) + ExpectedOverride(req, ua) + ExpectedSuffix(req, templates)
  }

  /** The user agent the override carries: the supplied one, or the one the
      session reports after the ten registrations, rewritten. When the query
      fails or has no user agent the override is never sent, and the value
      is immaterial. */
  function ResolvedUserAgent(req: Request, templates: map<string, string>, tp: Transport): string
    requires Complete(req, templates)
  {
    match req.userAgent
    case Some(ua) => RewriteUserAgent(ua)
    case None =>
      match tp(ExpectedPrefix(req, templates), GetVersion)
      case Accept(result) =>
        if UserAgentKey in result then RewriteUserAgent(Literal(result[UserAgentKey])) else ""
      case Reject(_) => ""
  }

  /** The version query is answered, but without a user agent. */
  predicate UserAgentKeyMissing(req: Request, templates: map<string, string>, tp: Transport)
    requires Complete(req, templates)
  {
    && req.userAgent.None?
    && tp(ExpectedPrefix(req, templates), GetVersion).Accept?
    && UserAgentKey !in tp(ExpectedPrefix(req, templates), GetVersion).result
  }

  /** The session accepts each command of `trace` from position `lo` up to
      (not including) `hi`, given the commands before it. */
  predicate AcceptedFrom(tp: Transport, trace: seq<Command>, lo: nat, hi: nat)
    requires lo <= hi <= |trace|
  {
    forall k | lo <= k < hi :: tp(trace[..k], trace[k]).Accept?
  }

  /** Issues `cmds` in order after `trace`, stopping at the first rejection. */
  function RunCmds(cmds: seq<Command>, tp: Transport, trace: seq<Command>): (r: Run)
    ensures trace <= r.trace
    decreases |cmds|
  {
    if |cmds| == 0 then Run(trace, Done)
    else
      var first := Issue(tp, trace, cmds[0]);
      if first.outcome.Done? then RunCmds(cmds[1..], tp, first.trace) else first
  }

  /** Runs `cmds` after `r` if `r` finished, otherwise keeps `r`. */
  function Continue(r: Run, cmds: seq<Command>, tp: Transport): Run
  {
    if r.outcome.Done? then RunCmds(cmds, tp, r.trace) else r
  }

  function ContinueSteps(r: Run, steps: seq<Step>, templates: map<string, string>,
                         tp: Transport): Run
  {
    if r.outcome.Done? then RunSteps(steps, templates, tp, r.trace) else r
  }

  // ---------------------------------------------------------------------------
  // The fail-fast runner
  // ---------------------------------------------------------------------------

  lemma AcceptedFromStep(tp: Transport, trace: seq<Command>, lo: nat, hi: nat)
    requires lo < hi <= |trace|
    ensures AcceptedFrom(tp, trace, lo, hi)
        <==> tp(trace[..lo], trace[lo]).Accept? && AcceptedFrom(tp, trace, lo + 1, hi)
  {
  }

  /** A fail-fast run issues a prefix of the list, and all of it when it
      finishes. */
  lemma {:induction false} RunCmdsPrefix(cmds: seq<Command>, tp: Transport, trace: seq<Command>)
    ensures var r := RunCmds(cmds, tp, trace);
      && r.trace <= trace + cmds
      && !r.outcome.Panicked?
      && (r.outcome.Done? ==> r.trace == trace + cmds)
    decreases |cmds|
  {
    if |cmds| == 0 {
      assert trace + cmds == trace;
    } else {
      var next := trace + [cmds[0]];
      assert trace + cmds == next + cmds[1..];
      if Issue(tp, trace, cmds[0]).outcome.Done? {
        RunCmdsPrefix(cmds[1..], tp, next);
      }
    }
  }

  /** A fail-fast run finishes exactly when the session accepts every
      command of the list. */
  lemma {:induction false} RunCmdsDone(cmds: seq<Command>, tp: Transport, trace: seq<Command>)
    ensures RunCmds(cmds, tp, trace).outcome.Done?
        <==> AcceptedFrom(tp, trace + cmds, |trace|, |trace + cmds|)
    decreases |cmds|
  {
    var all := trace + cmds;
    if |cmds| > 0 {
      var next := trace + [cmds[0]];
      assert all == next + cmds[1..];
      assert all[..|trace|] == trace && all[|trace|] == cmds[0];
      AcceptedFromStep(tp, all, |trace|, |all|);
      if Issue(tp, trace, cmds[0]).outcome.Done? {
        RunCmdsDone(cmds[1..], tp, next);
      }
    }
  }

  /** A failed run ends with the first rejected command, whose reason it
      reports; every command before it was accepted. */
  lemma {:induction false} RunCmdsFailed(cmds: seq<Command>, tp: Transport, trace: seq<Command>)
    ensures var r := RunCmds(cmds, tp, trace);
      r.outcome.Failed? ==>
        && |trace| < |r.trace|
        && AcceptedFrom(tp, r.trace, |trace|, |r.trace| - 1)
        && tp(r.trace[..|r.trace| - 1], r.trace[|r.trace| - 1]) == Reject(r.outcome.reason)
    decreases |cmds|
  {
    if |cmds| > 0 {
      var c := cmds[0];
      var next := trace + [c];
      var first := Issue(tp, trace, c);
      if first.outcome.Done? {
        RunCmdsFailed(cmds[1..], tp, next);
        var r := RunCmds(cmds[1..], tp, next);
        if r.outcome.Failed? {
          assert next <= r.trace;
          assert r.trace[..|trace|] == trace && r.trace[|trace|] == c;
          AcceptedFromStep(tp, r.trace, |trace|, |r.trace| - 1);
        }
      } else {
        assert first.trace[..|trace|] == trace;
      }
    }
  }

  /** Running two lists back to back is running their concatenation. */
  lemma {:induction false} RunCmdsAppend(a: seq<Command>, b: seq<Command>, tp: Transport,
                                         trace: seq<Command>)
    ensures RunCmds(a + b, tp, trace) == Continue(RunCmds(a, tp, trace), b, tp)
    decreases |a|
  {
    if |a| == 0 {
      assert a + b == b;
    } else {
      assert (a + b)[0] == a[0] && (a + b)[1..] == a[1..] + b;
      var first := Issue(tp, trace, a[0]);
      if first.outcome.Done? {
        RunCmdsAppend(a[1..], b, tp, first.trace);
      }
    }
  }

  lemma {:induction false} RunStepsAppend(a: seq<Step>, b: seq<Step>, templates: map<string, string>,
                                          tp: Transport, trace: seq<Command>)
    ensures RunSteps(a + b, templates, tp, trace)
         == ContinueSteps(RunSteps(a, templates, tp, trace), b, templates, tp)
    decreases |a|
  {
    if |a| == 0 {
      assert a + b == b;
    } else {
      assert (a + b)[0] == a[0] && (a + b)[1..] == a[1..] + b;
      var first := ExecStep(a[0], templates, tp, trace);
      if first.outcome.Done? {
        RunStepsAppend(a[1..], b, templates, tp, first.trace);
      }
    }
  }

  /** `steps` are script steps whose templates exist, and `cmds` are their
      registrations, one each, in the same order. */
  predicate Corresponds(steps: seq<Step>, cmds: seq<Command>, templates: map<string, string>)
    decreases |steps|
  {
    && |steps| == |cmds|
    && (|steps| > 0 ==>
         && steps[0].Script?
         && steps[0].path in templates
         && cmds[0] == AddScript(Render.Evaluate(templates[steps[0].path], steps[0].args))
         && Corresponds(steps[1..], cmds[1..], templates))
  }

  /** Script steps run exactly as their registrations would. */
  lemma {:induction false} ScriptsRunAsCommands(steps: seq<Step>, cmds: seq<Command>,
                                                templates: map<string, string>, tp: Transport,
                                                trace: seq<Command>)
    requires Corresponds(steps, cmds, templates)
    ensures RunSteps(steps, templates, tp, trace) == RunCmds(cmds, tp, trace)
    decreases |steps|
  {
    if |steps| > 0 {
      var first := ExecStep(steps[0], templates, tp, trace);
      assert first == Issue(tp, trace, cmds[0]);
      if first.outcome.Done? {
        ScriptsRunAsCommands(steps[1..], cmds[1..], templates, tp, first.trace);
      }
    }
  }

  // ---------------------------------------------------------------------------
  // Activate is the fail-fast run of the expected trace
  // ---------------------------------------------------------------------------

  /** Adds one matching script step and registration at the front. */
  lemma CorrespondsCons(steps: seq<Step>, cmds: seq<Command>, templates: map<string, string>,
                        k: nat)
    requires k < |steps| == |cmds|
    requires steps[k].Script? && steps[k].path in templates
    requires cmds[k] == AddScript(Render.Evaluate(templates[steps[k].path], steps[k].args))
    requires Corresponds(steps[k + 1..], cmds[k + 1..], templates)
    ensures Corresponds(steps[k..], cmds[k..], templates)
  {
    assert steps[k..][1..] == steps[k + 1..] && cmds[k..][1..] == cmds[k + 1..];
  }

  lemma PreludeCorrespondsFront(req: Request, templates: map<string, string>)
    requires Complete(req, templates)
    ensures Corresponds(Prelude(req)[..5], ExpectedPrefix(req, templates)[..5], templates)
  {
    var s, c := Prelude(req)[..5], ExpectedPrefix(req, templates)[..5];
    assert Corresponds(s[5..], c[5..], templates);
    CorrespondsCons(s, c, templates, 4);
    CorrespondsCons(s, c, templates, 3);
    CorrespondsCons(s, c, templates, 2);
    CorrespondsCons(s, c, templates, 1);
    CorrespondsCons(s, c, templates, 0);
    assert s[0..] == s && c[0..] == c;
  }

  lemma PreludeCorrespondsMid(req: Request, templates: map<string, string>)
    requires Complete(req, templates)
    ensures Corresponds(Prelude(req)[5..8], ExpectedPrefix(req, templates)[5..8], templates)
  {
    var s, c := Prelude(req)[5..8], ExpectedPrefix(req, templates)[5..8];
    assert Corresponds(s[3..], c[3..], templates);
    CorrespondsCons(s, c, templates, 2);
    CorrespondsCons(s, c, templates, 1);
    CorrespondsCons(s, c, templates, 0);
    assert s[0..] == s && c[0..] == c;
  }

  lemma PreludeCorrespondsLast(req: Request, templates: map<string, string>)
    requires Complete(req, templates)
    ensures Corresponds(Prelude(req)[8..], ExpectedPrefix(req, templates)[8..], templates)
  {
    var s, c := Prelude(req)[8..], ExpectedPrefix(req, templates)[8..];
    assert Corresponds(s[2..], c[2..], templates);
    CorrespondsCons(s, c, templates, 1);
    CorrespondsCons(s, c, templates, 0);
    assert s[0..] == s && c[0..] == c;
  }

  lemma PreludeCorrespondsBack(req: Request, templates: map<string, string>)
    requires Complete(req, templates)
    ensures Corresponds(Prelude(req)[5..], ExpectedPrefix(req, templates)[5..], templates)
  {
    var s, c := Prelude(req), ExpectedPrefix(req, templates);
    PreludeCorrespondsMid(req, templates);
    PreludeCorrespondsLast(req, templates);
    CorrespondsAppend(s[5..8], c[5..8], s[8..], c[8..], templates);
    assert s[5..8] + s[8..] == s[5..] && c[5..8] + c[8..] == c[5..];
  }

  lemma PreludeCorresponds(req: Request, templates: map<string, string>)
    requires Complete(req, templates)
    ensures Corresponds(Prelude(req), ExpectedPrefix(req, templates), templates)
  {
    var s, c := Prelude(req), ExpectedPrefix(req, templates);
    PreludeCorrespondsFront(req, templates);
    PreludeCorrespondsBack(req, templates);
    CorrespondsAppend(s[..5], c[..5], s[5..], c[5..], templates);
    assert s[..5] + s[5..] == s && c[..5] + c[5..] == c;
  }

  lemma {:induction false} CorrespondsAppend(s1: seq<Step>, c1: seq<Command>, s2: seq<Step>,
                                             c2: seq<Command>, templates: map<string, string>)
    requires Corresponds(s1, c1, templates) && Corresponds(s2, c2, templates)
    ensures Corresponds(s1 + s2, c1 + c2, templates)
    decreases |s1|
  {
    if |s1| == 0 {
      assert s1 + s2 == s2 && c1 + c2 == c2;
    } else {
      CorrespondsAppend(s1[1..], c1[1..], s2, c2, templates);
      assert (s1 + s2)[1..] == s1[1..] + s2 && (c1 + c2)[1..] == c1[1..] + c2;
    }
  }

  lemma SingleCorresponds(step: Step, cmd: Command, templates: map<string, string>)
    requires step.Script? && step.path in templates
    requires cmd == AddScript(Render.Evaluate(templates[step.path], step.args))
    ensures Corresponds([step], [cmd], templates)
  {
    assert [step][1..] == [] && [cmd][1..] == [];
  }

  lemma EpilogueCorrespondsFront(req: Request, templates: map<string, string>)
    requires Complete(req, templates)
    ensures |Epilogue(req)| >= 2 && |ExpectedSuffix(req, templates)| >= 2
    ensures Corresponds(Epilogue(req)[..2], ExpectedSuffix(req, templates)[..2], templates)
  {
    var s, c := Epilogue(req)[..2], ExpectedSuffix(req, templates)[..2];
    assert Corresponds(s[2..], c[2..], templates);
    CorrespondsCons(s, c, templates, 1);
    CorrespondsCons(s, c, templates, 0);
    assert s[0..] == s && c[0..] == c;
  }

  lemma EpilogueCorrespondsBack(req: Request, templates: map<string, string>)
    requires Complete(req, templates)
    ensures |Epilogue(req)| >= 2 && |ExpectedSuffix(req, templates)| >= 2
    ensures Corresponds(Epilogue(req)[2..], ExpectedSuffix(req, templates)[2..], templates)
  {
    var s, c := Epilogue(req), ExpectedSuffix(req, templates);
    if HairlineEnabled(req) {
      SingleCorresponds(s[2], c[2], templates);
      assert s[2..] == [s[2]] && c[2..] == [c[2]];
    } else {
      assert s[2..] == [] && c[2..] == [];
    }
  }

  lemma EpilogueCorresponds(req: Request, templates: map<string, string>)
    requires Complete(req, templates)
    ensures Corresponds(Epilogue(req), ExpectedSuffix(req, templates), templates)
  {
    var s, c := Epilogue(req), ExpectedSuffix(req, templates);
    EpilogueCorrespondsFront(req, templates);
    EpilogueCorrespondsBack(req, templates);
    CorrespondsAppend(s[..2], c[..2], s[2..], c[2..], templates);
    assert s[..2] + s[2..] == s && c[..2] + c[2..] == c;
  }

  /** The user-agent step issues the version query (only without a supplied
      user agent) and then the override carrying `ua`, provided `ua` is what
      the step derives and the query's answer, if any, has a user agent. */
  lemma UserAgentStepRunsAsCommands(supplied: Option<string>, acceptLanguage: string,
                                    platform: string, ua: string,
                                    templates: map<string, string>, tp: Transport,
                                    trace: seq<Command>)
    requires supplied.Some? ==> ua == RewriteUserAgent(supplied.value)
    requires supplied.None? && tp(trace, GetVersion).Accept? ==>
      && UserAgentKey in tp(trace, GetVersion).result
      && ua == RewriteUserAgent(Literal(tp(trace, GetVersion).result[UserAgentKey]))
    ensures ExecStep(UserAgentStep(supplied, acceptLanguage, platform), templates, tp, trace)
         == RunCmds((if supplied.None? then [GetVersion] else [])
                    + [SetUserAgent(ua, acceptLanguage, platform)], tp, trace)
  {
    var over := SetUserAgent(ua, acceptLanguage, platform);
    if supplied.None? {
      var cmds := [GetVersion, over];
      assert (if supplied.None? then [GetVersion] else []) + [over] == cmds;
      assert cmds[1..] == [over];
      if tp(trace, GetVersion).Accept? {
        assert RunCmds(cmds, tp, trace) == RunCmds([over], tp, trace + [GetVersion]);
      }
    } else {
      assert (if supplied.None? then [GetVersion] else []) + [over] == [over];
    }
  }

  /** After all ten registrations were accepted, the rest of the plan runs as
      the rest of the expected trace, or panics after the version query. */
  lemma AfterPrelude(req: Request, templates: map<string, string>, tp: Transport)
    requires Complete(req, templates)
    ensures var p := ExpectedPrefix(req, templates);
      var rest := [UserAgentOverride(req.userAgent, req.languages, req.platform)] + Epilogue(req);
      if UserAgentKeyMissing(req, templates, tp)
      then RunSteps(rest, templates, tp, p) == Run(p + [GetVersion], Panicked(UnwrapNonePanic))
      else RunSteps(rest, templates, tp, p)
           == RunCmds(ExpectedOverride(req, ResolvedUserAgent(req, templates, tp))
                      + ExpectedSuffix(req, templates), tp, p)
  {
    var p := ExpectedPrefix(req, templates);
    var ua := ResolvedUserAgent(req, templates, tp);
    var ov := ExpectedOverride(req, ua);
    var sx := ExpectedSuffix(req, templates);
    var uaStep := UserAgentOverride(req.userAgent, req.languages, req.platform);
    var rest := [uaStep] + Epilogue(req);
    assert rest[0] == uaStep && rest[1..] == Epilogue(req);
    var x := ExecStep(uaStep, templates, tp, p);
    if !UserAgentKeyMissing(req, templates, tp) {
      UserAgentStepRunsAsCommands(req.userAgent, uaStep.acceptLanguage, uaStep.platform, ua,
                                  templates, tp, p);
      RunCmdsAppend(ov, sx, tp, p);
      if x.outcome.Done? {
        RunCmdsPrefix(ov, tp, p);
        EpilogueCorresponds(req, templates);
        ScriptsRunAsCommands(Epilogue(req), sx, templates, tp, x.trace);
      }
    }
  }

  /** The ten registrations run as the first ten commands of the expected
      trace, and finish exactly when the session accepts all of them. */
  lemma PreludeRuns(req: Request, templates: map<string, string>, tp: Transport)
    requires Complete(req, templates)
    ensures var p := ExpectedPrefix(req, templates);
      var r := RunSteps(Prelude(req), templates, tp, []);
      && r == RunCmds(p, tp, [])
      && (r.outcome.Done? <==> AcceptedFrom(tp, p, 0, |p|))
      && (r.outcome.Done? ==> r.trace == p)
  {
    var p := ExpectedPrefix(req, templates);
    PreludeCorresponds(req, templates);
    ScriptsRunAsCommands(Prelude(req), p, templates, tp, []);
    RunCmdsPrefix(p, tp, []);
    RunCmdsDone(p, tp, []);
    assert [] + p == p;
  }

  /** The central theorem. With every template available, an activation is
      the fail-fast run of the expected trace, except in one case: the
      version query is answered without a user agent, and then the
      activation panics right after it. */
  lemma ActivateIsExpectedRun(req: Request, templates: map<string, string>, tp: Transport)
    requires Complete(req, templates)
    ensures var p := ExpectedPrefix(req, templates);
      if UserAgentKeyMissing(req, templates, tp) && AcceptedFrom(tp, p, 0, |p|)
      then Activate(req, templates, tp) == Run(p + [GetVersion], Panicked(UnwrapNonePanic))
      else Activate(req, templates, tp)
           == RunCmds(ExpectedTrace(req, templates, ResolvedUserAgent(req, templates, tp)), tp, [])
  {
    var p := ExpectedPrefix(req, templates);
    var ov := ExpectedOverride(req, ResolvedUserAgent(req, templates, tp));
    var sx := ExpectedSuffix(req, templates);
    var rest := [UserAgentOverride(req.userAgent, req.languages, req.platform)] + Epilogue(req);
    assert Plan(req) == Prelude(req) + rest;
    assert ExpectedTrace(req, templates, ResolvedUserAgent(req, templates, tp)) == p + (ov + sx);

    RunStepsAppend(Prelude(req), rest, templates, tp, []);
    PreludeRuns(req, templates, tp);
    RunCmdsAppend(p, ov + sx, tp, []);
    AfterPrelude(req, templates, tp);
  }

  // ---------------------------------------------------------------------------
  // Consequences
  // ---------------------------------------------------------------------------

  lemma AcceptedPrefix(tp: Transport, t: seq<Command>, u: seq<Command>)
    requires t <= u
    requires AcceptedFrom(tp, u, 0, |u|)
    ensures AcceptedFrom(tp, t, 0, |t|)
  {
    forall k | 0 <= k < |t| ensures tp(t[..k], t[k]).Accept? {
      assert t[..k] == u[..k] && t[k] == u[k];
    }
  }

  /** Whatever the session does, the commands issued are, in order, a prefix
      of the expected trace: no command is skipped, reordered or invented. */
  lemma ActivateTraceIsPrefix(req: Request, templates: map<string, string>, tp: Transport)
    requires Complete(req, templates)
    ensures Activate(req, templates, tp).trace
         <= ExpectedTrace(req, templates, ResolvedUserAgent(req, templates, tp))
  {
    var e := ExpectedTrace(req, templates, ResolvedUserAgent(req, templates, tp));
    var p := ExpectedPrefix(req, templates);
    ActivateIsExpectedRun(req, templates, tp);
    RunCmdsPrefix(e, tp, []);
    assert [] + e == e;
    if req.userAgent.None? {
      assert e[..11] == p + [GetVersion];
    }
  }

  /** Fail-fast: when the session rejects a command, activation fails with
      that command's reason, that command is the last one issued, and every
      command before it was accepted. Nothing is rolled back. */
  lemma ActivateFailFast(req: Request, templates: map<string, string>, tp: Transport)
    requires Complete(req, templates)
    ensures var r := Activate(req, templates, tp);
      r.outcome.Failed? ==>
        && |r.trace| >= 1
        && AcceptedFrom(tp, r.trace, 0, |r.trace| - 1)
        && tp(r.trace[..|r.trace| - 1], r.trace[|r.trace| - 1]) == Reject(r.outcome.reason)
  {
    var e := ExpectedTrace(req, templates, ResolvedUserAgent(req, templates, tp));
    var p := ExpectedPrefix(req, templates);
    ActivateIsExpectedRun(req, templates, tp);
    if !(UserAgentKeyMissing(req, templates, tp) && AcceptedFrom(tp, p, 0, |p|)) {
      var r := RunCmds(e, tp, []);
      assert Activate(req, templates, tp) == r;
      RunCmdsFailed(e, tp, []);
    }
  }

  /** Activation succeeds exactly when the session accepts every command of
      the expected trace (and the version reply, when asked for, carries a
      user agent); it then has issued exactly that trace. */
  lemma ActivateSucceeds(req: Request, templates: map<string, string>, tp: Transport)
    requires Complete(req, templates)
    ensures var e := ExpectedTrace(req, templates, ResolvedUserAgent(req, templates, tp));
      && (Activate(req, templates, tp).outcome.Done?
          <==> !UserAgentKeyMissing(req, templates, tp) && AcceptedFrom(tp, e, 0, |e|))
      && (Activate(req, templates, tp).outcome.Done? ==> Activate(req, templates, tp).trace == e)
  {
    var e := ExpectedTrace(req, templates, ResolvedUserAgent(req, templates, tp));
    var p := ExpectedPrefix(req, templates);
    ActivateIsExpectedRun(req, templates, tp);
    RunCmdsDone(e, tp, []);
    RunCmdsPrefix(e, tp, []);
    assert [] + e == e;
    if AcceptedFrom(tp, e, 0, |e|) {
      AcceptedPrefix(tp, p, e);
    }
  }

  /** The only panic with every template available: the version reply has no
      user agent, after all ten registrations and the query were accepted. */
  lemma ActivatePanics(req: Request, templates: map<string, string>, tp: Transport)
    requires Complete(req, templates)
    ensures var p := ExpectedPrefix(req, templates);
      && (Activate(req, templates, tp).outcome.Panicked?
          <==> UserAgentKeyMissing(req, templates, tp) && AcceptedFrom(tp, p, 0, |p|))
      && (Activate(req, templates, tp).outcome.Panicked?
          ==> Activate(req, templates, tp).trace == p + [GetVersion])
  {
    var e := ExpectedTrace(req, templates, ResolvedUserAgent(req, templates, tp));
    ActivateIsExpectedRun(req, templates, tp);
    RunCmdsPrefix(e, tp, []);
  }

  /** The reference trace holds the version query exactly when no user
      agent is supplied. */
  lemma ExpectedTraceQueries(req: Request, templates: map<string, string>, ua: string)
    requires Complete(req, templates)
    ensures GetVersion in ExpectedTrace(req, templates, ua) <==> req.userAgent.None?
  {
    var p := ExpectedPrefix(req, templates);
    var ov := ExpectedOverride(req, ua);
    var sx := ExpectedSuffix(req, templates);
    PrefixRegistersOnly(req, templates);
    assert forall i :: 0 <= i < |sx| ==> sx[i].AddScript?;
    assert GetVersion in ov <==> req.userAgent.None?;
    assert ExpectedTrace(req, templates, ua) == p + ov + sx;
  }

  lemma PrefixRegistersOnly(req: Request, templates: map<string, string>)
    requires Complete(req, templates)
    ensures forall i :: 0 <= i < |ExpectedPrefix(req, templates)|
                        ==> ExpectedPrefix(req, templates)[i].AddScript?
    ensures GetVersion !in ExpectedPrefix(req, templates)
  {
    var p := ExpectedPrefix(req, templates);
    assert forall i :: 0 <= i < |p| ==> p[i].AddScript?;
  }

  lemma SuffixRegistersOnly(req: Request, templates: map<string, string>)
    requires Complete(req, templates)
    ensures forall i :: 0 <= i < |ExpectedSuffix(req, templates)|
                        ==> ExpectedSuffix(req, templates)[i].AddScript?
  {
  }

  /** Each parameterised step resolves its settings to the supplied value,
      or to the documented default when none is supplied: the runtime flag
      is set only when asked for, the languages default to en-US and en
      (each its own argument), the vendor to Google Inc., the platform to
      the text None, and WebGL to Intel Inc. with Intel Iris OpenGL Engine. */
  lemma StepsResolveDefaults(req: Request)
    ensures var langs := if req.languages.Some? then req.languages.value else ["en-US", "en"];
      && ChromeRuntime(req.runOnInsecureOrigins)
         == Script(ChromeRuntimeJs, Some([JBool(req.runOnInsecureOrigins == Some(true))]))
      && NavigatorLanguages(req.languages) == Script(NavigatorLanguagesJs, Some(StringValues(langs)))
      && NavigatorVendor(req.vendor)
         == Script(NavigatorVendorJs,
                   Some([JString(if req.vendor.Some? then req.vendor.value else "Google Inc.")]))
      && UserAgentOverride(req.userAgent, req.languages, req.platform)
         == UserAgentStep(req.userAgent, Strings.Join(",", langs),
                          if req.platform.Some? then req.platform.value else "None")
      && WebglVendorOverride(req.webglVendor, req.renderer)
         == Script(WebglVendorJs,
                   Some([JString(if req.webglVendor.Some? then req.webglVendor.value
                                 else "Intel Inc."),
                         JString(if req.renderer.Some? then req.renderer.value
                                 else "Intel Iris OpenGL Engine")]))
  {
  }

  /** The hairline fix is applied unless explicitly turned off, as
      `unwrap_or(true)` decides. */
  lemma HairlineUnlessTurnedOff(req: Request)
    ensures HairlineEnabled(req) <==> req.fixHairline != Some(false)
  {
  }

  /** The plan has thirteen steps, fourteen unless the hairline fix is
      turned off; the user-agent step is at index 10, every other step
      registers a template, and the hairline fix, when present, is last. */
  lemma PlanShape(req: Request)
    ensures var s := Plan(req);
      && |s| == (if req.fixHairline == Some(false) then 13 else 14)
      && s[10].UserAgentStep?
      && (forall i :: 0 <= i < |s| && i != 10 ==> s[i].Script?)
      && (req.fixHairline != Some(false) ==> s[13] == Script(HairlineFixJs, None))
  {
    var s := Plan(req);
    assert s == Prelude(req) + [UserAgentOverride(req.userAgent, req.languages, req.platform)]
                + Epilogue(req);
    assert HairlineEnabled(req) <==> req.fixHairline != Some(false);
  }

  /** The protocol method of every command of the reference trace: the
      version query at position 10 when no user agent is supplied, the
      override right after the registrations and the query, and a script
      registration everywhere else. */
  lemma ExpectedMethods(req: Request, templates: map<string, string>, ua: string)
    requires Complete(req, templates)
    ensures var e := ExpectedTrace(req, templates, ua);
      forall i | 0 <= i < |e| ::
        e[i].Method()
        == if i == OverrideIndex(req) then "Network.setUserAgentOverride"
           else if i == 10 && req.userAgent.None? then "Browser.getVersion"
           else "Page.addScriptToEvaluateOnNewDocument"
  {
    var e := ExpectedTrace(req, templates, ua);
    var p := ExpectedPrefix(req, templates);
    var ov := ExpectedOverride(req, ua);
    var sx := ExpectedSuffix(req, templates);
    PrefixRegistersOnly(req, templates);
    SuffixRegistersOnly(req, templates);
    assert e == p + ov + sx;
    assert |ov| == OverrideIndex(req) - 9;
    assert ov[|ov| - 1].SetUserAgent?;
    assert req.userAgent.None? ==> ov[0] == GetVersion;
    forall i | 0 <= i < |e|
      ensures e[i].Method()
              == if i == OverrideIndex(req) then "Network.setUserAgentOverride"
                 else if i == 10 && req.userAgent.None? then "Browser.getVersion"
                 else "Page.addScriptToEvaluateOnNewDocument"
    {
      if i < 10 {
        assert e[i] == p[i];
      } else if i <= OverrideIndex(req) {
        assert e[i] == ov[i - 10];
      } else {
        assert e[i] == sx[i - 10 - |ov|];
      }
    }
  }

  /** The version query is issued only when no user agent was supplied, and
      on success exactly then. */
  lemma ActivateQueriesVersion(req: Request, templates: map<string, string>, tp: Transport)
    requires Complete(req, templates)
    ensures GetVersion in Activate(req, templates, tp).trace ==> req.userAgent.None?
    ensures Activate(req, templates, tp).outcome.Done? ==>
      (GetVersion in Activate(req, templates, tp).trace <==> req.userAgent.None?)
  {
    var e := ExpectedTrace(req, templates, ResolvedUserAgent(req, templates, tp));
    ExpectedTraceQueries(req, templates, ResolvedUserAgent(req, templates, tp));
    ActivateTraceIsPrefix(req, templates, tp);
    ActivateSucceeds(req, templates, tp);
    var t := Activate(req, templates, tp).trace;
    if GetVersion in t {
      var i :| 0 <= i < |t| && t[i] == GetVersion;
      assert e[i] == GetVersion;
    }
  }

  /** On success the trace has 13 commands, plus the version query when no
      user agent was supplied, plus the hairline fix unless it was turned off
      (`None` applies it); the hairline fix, when present, comes last. */
  lemma ActivateHairline(req: Request, templates: map<string, string>, tp: Transport)
    requires Complete(req, templates)
    ensures var t := Activate(req, templates, tp).trace;
      Activate(req, templates, tp).outcome.Done? ==>
        && |t| == 13 + (if req.userAgent.None? then 1 else 0)
                     + (if req.fixHairline == Some(false) then 0 else 1)
        && (req.fixHairline != Some(false) ==> t[|t| - 1] == Register(templates, HairlineFixJs, None))
        && (req.fixHairline == Some(false) ==>
              t[|t| - 1] == Register(templates, WindowOuterdimensionsJs, None))
  {
    ActivateSucceeds(req, templates, tp);
  }

  /** The argument list of the registration `cmd`, read back against the
      template at `path`. */
  function ArgsOfRegistration(cmd: Command, templates: map<string, string>, path: string)
    : Option<seq<Value>>
    requires path in templates
  {
    if cmd.AddScript? then Render.ArgsOf(cmd.source, templates[path]) else None
  }

  lemma RegisterArgs(templates: map<string, string>, path: string, args: seq<Value>)
    requires path in templates
    ensures ArgsOfRegistration(Register(templates, path, Some(args)), templates, path) == Some(args)
  {
    Render.EvaluateRoundTrip(templates[path], Some(args));
  }

  /** Where the user-agent override sits in a successful trace. */
  function OverrideIndex(req: Request): nat
  {
    if req.userAgent.None? then 11 else 10
  }

  /** Where the parameterised items sit in the reference trace. */
  lemma ExpectedTraceSlots(req: Request, templates: map<string, string>, ua: string)
    requires Complete(req, templates)
    ensures var e := ExpectedTrace(req, templates, ua);
      var p := ExpectedPrefix(req, templates);
      var sx := ExpectedSuffix(req, templates);
      var o := OverrideIndex(req);
      && |e| > o + 1
      && e[2] == p[2] && e[5] == p[5] && e[8] == p[8]
      && e[o] == SetUserAgent(ua, Strings.Join(",", LanguagesOf(req)), req.platform.GetOr("None"))
      && e[o + 1] == sx[0]
  {
    var ov := ExpectedOverride(req, ua);
    assert ov[|ov| - 1] == SetUserAgent(ua, Strings.Join(",", LanguagesOf(req)),
                                        req.platform.GetOr("None"));
  }

  /** The three parameterised registrations before the override. */
  lemma PrefixItems(req: Request, templates: map<string, string>)
    requires Complete(req, templates)
    ensures var p := ExpectedPrefix(req, templates);
      && p[2] == Register(templates, ChromeRuntimeJs,
                          Some([JBool(req.runOnInsecureOrigins.GetOr(false))]))
      && p[5] == Register(templates, NavigatorLanguagesJs, Some(StringValues(LanguagesOf(req))))
      && p[8] == Register(templates, NavigatorVendorJs,
                          Some([JString(req.vendor.GetOr("Google Inc."))]))
  {
  }

  /** The arguments the three parameterised registrations before the
      override carry. */
  lemma PrefixArgs(req: Request, templates: map<string, string>)
    requires Complete(req, templates)
    ensures var p := ExpectedPrefix(req, templates);
      && ArgsOfRegistration(p[2], templates, ChromeRuntimeJs)
         == Some([JBool(req.runOnInsecureOrigins.GetOr(false))])
      && ArgsOfRegistration(p[5], templates, NavigatorLanguagesJs)
         == Some(StringValues(LanguagesOf(req)))
      && ArgsOfRegistration(p[8], templates, NavigatorVendorJs)
         == Some([JString(req.vendor.GetOr("Google Inc."))])
  {
    PrefixItems(req, templates);
    RegisterArgs(templates, ChromeRuntimeJs, [JBool(req.runOnInsecureOrigins.GetOr(false))]);
    RegisterArgs(templates, NavigatorLanguagesJs, StringValues(LanguagesOf(req)));
    RegisterArgs(templates, NavigatorVendorJs, [JString(req.vendor.GetOr("Google Inc."))]);
  }

  /** The arguments of the WebGL registration. */
  lemma SuffixArgs(req: Request, templates: map<string, string>)
    requires Complete(req, templates)
    ensures ArgsOfRegistration(ExpectedSuffix(req, templates)[0], templates, WebglVendorJs)
         == Some([JString(req.webglVendor.GetOr("Intel Inc.")),
                  JString(req.renderer.GetOr("Intel Iris OpenGL Engine"))])
  {
    RegisterArgs(templates, WebglVendorJs, [JString(req.webglVendor.GetOr("Intel Inc.")),
                                            JString(req.renderer.GetOr("Intel Iris OpenGL Engine"))]);
  }

  /** Every setting of a successful activation is the supplied value when
      there is one and the documented default otherwise, and each template
      receives exactly its arguments: the insecure-origins flag (default
      false), each language tag as its own argument in list order (default
      en-US, en), the vendor (default Google Inc.), the WebGL vendor and
      renderer (default Intel Inc., Intel Iris OpenGL Engine); the override
      carries the languages joined with commas and the platform (default
      the text None). */
  lemma ActivateResolvesSettings(req: Request, templates: map<string, string>, tp: Transport)
    requires Complete(req, templates)
    requires Activate(req, templates, tp).outcome.Done?
    ensures var t := Activate(req, templates, tp).trace;
      var langs := if req.languages.Some? then req.languages.value else ["en-US", "en"];
      var o := OverrideIndex(req);
      && |t| > o + 1
      && ArgsOfRegistration(t[2], templates, ChromeRuntimeJs)
         == Some([JBool(req.runOnInsecureOrigins == Some(true))])
      && ArgsOfRegistration(t[5], templates, NavigatorLanguagesJs) == Some(StringValues(langs))
      && ArgsOfRegistration(t[8], templates, NavigatorVendorJs)
         == Some([JString(if req.vendor.Some? then req.vendor.value else "Google Inc.")])
      && t[o].SetUserAgent?
      && t[o].acceptLanguage == Strings.Join(",", langs)
      && t[o].platform == (if req.platform.Some? then req.platform.value else "None")
      && ArgsOfRegistration(t[o + 1], templates, WebglVendorJs)
         == Some([JString(if req.webglVendor.Some? then req.webglVendor.value else "Intel Inc."),
                  JString(if req.renderer.Some? then req.renderer.value
                          else "Intel Iris OpenGL Engine")])
  {
    var ua := ResolvedUserAgent(req, templates, tp);
    ActivateSucceeds(req, templates, tp);
    ExpectedTraceSlots(req, templates, ua);
    PrefixArgs(req, templates);
    SuffixArgs(req, templates);
  }

  /** The language list is used twice from the same input: the languages
      script receives the tags and the Accept-Language header lists them,
      comma-separated, so splitting the header gives the tags back. */
  lemma ActivateLanguagesAgree(req: Request, templates: map<string, string>, tp: Transport)
    requires Complete(req, templates)
    requires Activate(req, templates, tp).outcome.Done?
    requires |LanguagesOf(req)| >= 1
    requires forall i :: 0 <= i < |LanguagesOf(req)| ==> ',' !in LanguagesOf(req)[i]
    ensures var t := Activate(req, templates, tp).trace;
      && |t| > OverrideIndex(req)
      && t[OverrideIndex(req)].SetUserAgent?
      && ArgsOfRegistration(t[5], templates, NavigatorLanguagesJs)
         == Some(StringValues(Strings.Split(t[OverrideIndex(req)].acceptLanguage, ',')))
  {
    ActivateResolvesSettings(req, templates, tp);
    Strings.SplitJoin(LanguagesOf(req), ',');
  }

  lemma DefaultLanguagesText()
    ensures StringValues(["en-US", "en"]) == [JString("en-US"), JString("en")]
    ensures Strings.Join(",", ["en-US", "en"]) == "en-US,en"
  {
  }

  lemma DefaultPrefix(req: Request, templates: map<string, string>)
    requires req == Defaults
    requires Complete(req, templates)
    ensures var p := ExpectedPrefix(req, templates);
      && p[2] == Register(templates, ChromeRuntimeJs, Some([JBool(false)]))
      && p[5] == Register(templates, NavigatorLanguagesJs, Some([JString("en-US"), JString("en")]))
      && p[8] == Register(templates, NavigatorVendorJs, Some([JString("Google Inc.")]))
  {
    PrefixItems(req, templates);
    DefaultLanguagesText();
  }

  lemma DefaultSuffixWebgl(req: Request, templates: map<string, string>)
    requires req == Defaults
    requires Complete(req, templates)
    ensures ExpectedSuffix(req, templates)[0]
         == Register(templates, WebglVendorJs,
                     Some([JString("Intel Inc."), JString("Intel Iris OpenGL Engine")]))
  {
  }

  lemma DefaultSuffixHairline(req: Request, templates: map<string, string>)
    requires req == Defaults
    requires Complete(req, templates)
    ensures var sx := ExpectedSuffix(req, templates);
      |sx| == 3 && sx[2] == Register(templates, HairlineFixJs, None)
  {
    assert req.fixHairline == None && HairlineFixJs in templates;
  }

  /** Where each part of the reference trace sits when the user agent is
      fetched and the hairline fix is on. */
  lemma ExpectedTraceLayout(req: Request, templates: map<string, string>, ua: string)
    requires Complete(req, templates)
    requires req.userAgent.None? && req.fixHairline != Some(false)
    ensures var e := ExpectedTrace(req, templates, ua);
      var p := ExpectedPrefix(req, templates);
      var sx := ExpectedSuffix(req, templates);
      && |e| == 15 && |sx| == 3
      && e[2] == p[2] && e[5] == p[5] && e[8] == p[8]
      && e[10] == GetVersion
      && e[11] == SetUserAgent(ua, Strings.Join(",", LanguagesOf(req)), req.platform.GetOr("None"))
      && e[12] == sx[0] && e[14] == sx[2]
  {
  }

  /** The reference trace with nothing supplied, item by item. */
  lemma DefaultExpectedTrace(req: Request, templates: map<string, string>, ua: string)
    requires req == Defaults
    requires Complete(req, templates)
    ensures var e := ExpectedTrace(req, templates, ua);
      && |e| == 15
      && e[2] == Register(templates, ChromeRuntimeJs, Some([JBool(false)]))
      && e[5] == Register(templates, NavigatorLanguagesJs, Some([JString("en-US"), JString("en")]))
      && e[8] == Register(templates, NavigatorVendorJs, Some([JString("Google Inc.")]))
      && e[10] == GetVersion
      && e[11] == SetUserAgent(ua, "en-US,en", "None")
      && e[12] == Register(templates, WebglVendorJs,
                           Some([JString("Intel Inc."), JString("Intel Iris OpenGL Engine")]))
      && e[14] == Register(templates, HairlineFixJs, None)
  {
    DefaultLanguagesText();
    ExpectedTraceLayout(req, templates, ua);
    DefaultPrefix(req, templates);
    DefaultSuffixWebgl(req, templates);
    DefaultSuffixHairline(req, templates);
  }

  /** With nothing supplied, a successful activation issues 15 commands: the
      runtime flag is false, the languages en-US and en, the vendor
      Google Inc., the user agent is fetched, the header is en-US,en with
      platform None, WebGL reports Intel Inc. and Intel Iris OpenGL Engine,
      and the hairline fix is registered last. */
  lemma DefaultActivation(req: Request, templates: map<string, string>, tp: Transport)
    requires req == Defaults
    requires Complete(req, templates)
    requires Activate(req, templates, tp).outcome.Done?
    ensures var t := Activate(req, templates, tp).trace;
      && |t| == 15
      && t[2] == Register(templates, ChromeRuntimeJs, Some([JBool(false)]))
      && t[5] == Register(templates, NavigatorLanguagesJs, Some([JString("en-US"), JString("en")]))
      && t[8] == Register(templates, NavigatorVendorJs, Some([JString("Google Inc.")]))
      && t[10] == GetVersion
      && t[11] == SetUserAgent(ResolvedUserAgent(req, templates, tp), "en-US,en", "None")
      && t[12] == Register(templates, WebglVendorJs,
                           Some([JString("Intel Inc."), JString("Intel Iris OpenGL Engine")]))
      && t[14] == Register(templates, HairlineFixJs, None)
  {
    ActivateSucceeds(req, templates, tp);
    DefaultExpectedTrace(req, templates, ResolvedUserAgent(req, templates, tp));
  }

  /** Supplying a vendor changes the reference trace in the vendor's
      registration only. */
  lemma VendorChangesOnlyVendor(req: Request, templates: map<string, string>, ua: string,
                                v: string)
    requires Complete(req, templates)
    ensures var a := ExpectedTrace(req, templates, ua);
      var b := ExpectedTrace(req.(vendor := Some(v)), templates, ua);
      && |a| == |b| > 8
      && b[8] == Register(templates, NavigatorVendorJs, Some([JString(v)]))
      && (forall i :: 0 <= i < |a| && i != 8 ==> a[i] == b[i])
  {
    var req' := req.(vendor := Some(v));
    var p, p' := ExpectedPrefix(req, templates), ExpectedPrefix(req', templates);
    assert ExpectedOverride(req, ua) == ExpectedOverride(req', ua);
    assert ExpectedSuffix(req, templates) == ExpectedSuffix(req', templates);
    assert forall i :: 0 <= i < 10 && i != 8 ==> p[i] == p'[i];
  }

  /** Supplying only the vendor changes only the vendor's argument; apart
      from it, and from the user agent the session reports, the trace is
      the one of an activation with nothing supplied. */
  lemma VendorOnlyActivation(req: Request, templates: map<string, string>, tp: Transport,
                             v: string)
    requires req == Defaults.(vendor := Some(v))
    requires Complete(req, templates)
    requires Activate(req, templates, tp).outcome.Done?
    ensures var t := Activate(req, templates, tp).trace;
      var d := ExpectedTrace(Defaults, templates, ResolvedUserAgent(req, templates, tp));
      && |t| == |d| == 15
      && t[8] == Register(templates, NavigatorVendorJs, Some([JString(v)]))
      && (forall i :: 0 <= i < 15 && i != 8 ==> t[i] == d[i])
  {
    var ua := ResolvedUserAgent(req, templates, tp);
    ActivateSucceeds(req, templates, tp);
    VendorChangesOnlyVendor(Defaults, templates, ua, v);
    DefaultExpectedTrace(Defaults, templates, ua);
  }

  // ---------------------------------------------------------------------------
  // The user agent
  // ---------------------------------------------------------------------------

  /** Once the marker replacement of `ua` is known and has no surrounding
      whitespace, the final user agent is it in parentheses. */
  lemma RewriteOf(ua: string, replaced: string)
    requires Strings.ReplaceAll(ua, HeadlessMarker, ChromeToken) == replaced
    requires replaced == [] || (!Strings.IsWhitespace(replaced[0])
                                && !Strings.IsWhitespace(replaced[|replaced| - 1]))
    ensures RewriteUserAgent(ua) == "(" + replaced + ")"
  {
    Strings.TrimUnique([], replaced, []);
    assert [] + replaced + [] == replaced;
  }

  /** A user agent without the headless marker and without surrounding
      whitespace is only wrapped in parentheses. */
  lemma RewriteCleanUserAgent(ua: string)
    requires !Strings.Occurs(ua, HeadlessMarker)
    requires ua == [] || (!Strings.IsWhitespace(ua[0]) && !Strings.IsWhitespace(ua[|ua| - 1]))
    ensures RewriteUserAgent(ua) == "(" + ua + ")"
  {
    Strings.ReplaceAllAbsent(ua, HeadlessMarker, ChromeToken);
    RewriteOf(ua, ua);
  }

  /** A single marker, after text where none starts, is replaced once. */
  lemma ReplaceOneMarker(pre: string, rest: string)
    requires Strings.NoMatchStartsIn(pre, HeadlessMarker)
    requires !Strings.Occurs(rest, HeadlessMarker)
    ensures Strings.ReplaceAll(pre + HeadlessMarker + rest, HeadlessMarker, ChromeToken)
         == pre + ChromeToken + rest
  {
    Strings.ReplaceAllFirstMatch(pre, HeadlessMarker, rest, ChromeToken);
    Strings.ReplaceAllAbsent(rest, HeadlessMarker, ChromeToken);
  }

  /** A supplied user agent holding the headless marker once is sent with
      the plain token in its place and nothing else changed, as long as it
      neither starts nor ends with whitespace: a supplied
      `Mozilla/5.0 (X11) HeadlessChrome/100.0` is sent as
      `(Mozilla/5.0 (X11) Chrome/100.0)`. */
  lemma RewriteSuppliedHeadless(ua: string, pre: string, rest: string)
    requires ua == pre + HeadlessMarker + rest
    requires Strings.NoMatchStartsIn(pre, HeadlessMarker)
    requires !Strings.Occurs(rest, HeadlessMarker)
    requires pre == [] || !Strings.IsWhitespace(pre[0])
    requires rest == [] || !Strings.IsWhitespace(rest[|rest| - 1])
    ensures RewriteUserAgent(ua) == "(" + pre + ChromeToken + rest + ")"
  {
    var inner := pre + ChromeToken + rest;
    ReplaceOneMarker(pre, rest);
    TokenEnds(pre, rest);
    RewriteOf(ua, inner);
    Parenthesised(pre, ChromeToken, rest);
  }

  /** Parentheses around a three-part concatenation, regrouped. */
  lemma Parenthesised(a: string, b: string, c: string)
    ensures "(" + (a + b + c) + ")" == "(" + a + b + c + ")"
  {
  }

  /** The token between text that neither starts nor ends with whitespace
      gives text that neither starts nor ends with it. */
  lemma TokenEnds(pre: string, rest: string)
    requires pre == [] || !Strings.IsWhitespace(pre[0])
    requires rest == [] || !Strings.IsWhitespace(rest[|rest| - 1])
    ensures var inner := pre + ChromeToken + rest;
      && inner != []
      && !Strings.IsWhitespace(inner[0])
      && !Strings.IsWhitespace(inner[|inner| - 1])
  {
    var inner := pre + ChromeToken + rest;
    assert inner[0] == if pre == [] then 'C' else pre[0];
    assert inner[|inner| - 1] == if rest == [] then 'e' else rest[|rest| - 1];
  }

  lemma QuotedReplace(e: string)
    ensures Strings.ReplaceAll("\"" + e + "\"", HeadlessMarker, ChromeToken)
         == "\"" + Strings.ReplaceAll(e, HeadlessMarker, ChromeToken) + "\""
  {
    var q := '"';
    assert q !in HeadlessMarker;
    assert "\"" + e + "\"" == [q] + (e + [q]);
    Strings.ReplaceAllKeepsFirst(q, e + [q], HeadlessMarker, ChromeToken);
    Strings.ReplaceAllKeepsLast(e, q, HeadlessMarker, ChromeToken);
  }

  /** A fetched user agent is the JSON text of the reply's field, so it keeps
      its double quotes: the override carries `("...")`, the quotes inside
      the parentheses. */
  lemma QuotedEnds(r: string)
    ensures var m := "\"" + r + "\"";
      && m != [] && !Strings.IsWhitespace(m[0]) && !Strings.IsWhitespace(m[|m| - 1])
      && "(" + m + ")" == "(\"" + r + "\")"
  {
  }

  /** Quoted text keeps its quotes through the rewrite. */
  lemma RewriteQuoted(quoted: string, e: string)
    requires quoted == "\"" + e + "\""
    ensures RewriteUserAgent(quoted)
         == "(\"" + Strings.ReplaceAll(e, HeadlessMarker, ChromeToken) + "\")"
  {
    var r := Strings.ReplaceAll(e, HeadlessMarker, ChromeToken);
    QuotedReplace(e);
    QuotedEnds(r);
    RewriteOf(quoted, "\"" + r + "\"");
  }

  lemma RewriteFetched(fetched: string, x: string)
    requires fetched == Literal(JString(x))
    ensures RewriteUserAgent(fetched)
         == "(\"" + Strings.ReplaceAll(Escape(x), HeadlessMarker, ChromeToken) + "\")"
  {
    RewriteQuoted(fetched, Escape(x));
  }

  /** Text made only of characters JSON writes as themselves. */
  predicate Plain(x: string)
  {
    forall i :: 0 <= i < |x| ==> x[i] != '"' && x[i] != '\\' && (x[i] as int) >= 0x20
  }

  lemma PlainAroundMarker(pre: string, rest: string)
    requires Plain(pre) && Plain(rest)
    ensures Plain(pre + HeadlessMarker + rest)
  {
    var x := pre + HeadlessMarker + rest;
    forall i | 0 <= i < |x|
      ensures x[i] != '"' && x[i] != '\\' && (x[i] as int) >= 0x20
    {
      if i < |pre| {
        assert x[i] == pre[i];
      } else if i >= |pre| + |HeadlessMarker| {
        assert x[i] == rest[i - |pre| - |HeadlessMarker|];
      } else {
        assert x[i] == HeadlessMarker[i - |pre|];
      }
    }
  }

  /** The parts around the marker of a desktop-style headless user agent,
      `Mozilla/5.0 (X11; Linux x86_64) HeadlessChrome/100.0 Safari/537.36`. */
  const DesktopPrefix := "Mozilla/5.0 (X11; Linux x86_64) "
  const DesktopRest := "/100.0 Safari/537.36"

  /** Supplied, such a user agent loses only the `Headless` part of its
      browser token. */
  lemma RewriteDesktopHeadless()
    ensures RewriteUserAgent(DesktopPrefix + HeadlessMarker + DesktopRest)
         == "(" + DesktopPrefix + ChromeToken + DesktopRest + ")"
  {
    assert HeadlessMarker[0] == 'H';
    Strings.NoMatchWithoutHead(DesktopPrefix, HeadlessMarker);
    Strings.AbsentWithoutHead(DesktopRest, HeadlessMarker);
    RewriteSuppliedHeadless(DesktopPrefix + HeadlessMarker + DesktopRest, DesktopPrefix, DesktopRest);
  }

  /** A fetched user agent holding the headless marker once, around plain
      text, gets the token replaced and keeps its JSON quotes. */
  lemma RewriteFetchedHeadless(fetched: string, pre: string, rest: string)
    requires fetched == Literal(JString(pre + HeadlessMarker + rest))
    requires Strings.NoMatchStartsIn(pre, HeadlessMarker)
    requires !Strings.Occurs(rest, HeadlessMarker)
    requires Plain(pre) && Plain(rest)
    ensures RewriteUserAgent(fetched) == "(\"" + pre + ChromeToken + rest + "\")"
  {
    var x := pre + HeadlessMarker + rest;
    PlainAroundMarker(pre, rest);
    Json.EscapePlain(x);
    RewriteFetched(fetched, x);
    ReplaceOneMarker(pre, rest);
    QuotesParenthesised(pre, ChromeToken, rest);
  }

  /** Quoted parentheses around a three-part concatenation, regrouped. */
  lemma QuotesParenthesised(a: string, b: string, c: string)
    ensures "(\"" + (a + b + c) + "\")" == "(\"" + a + b + c + "\")"
  {
  }

  /** The version reply carries the user agent `pre + HeadlessMarker + rest`,
      whatever other fields it has. */
  predicate ReportsHeadless(reply: Reply, pre: string, rest: string)
  {
    && reply.Accept?
    && UserAgentKey in reply.result
    && reply.result[UserAgentKey] == JString(pre + HeadlessMarker + rest)
  }

  /** The user agent resolved from such a version reply. */
  lemma ResolvedFetchedHeadless(req: Request, templates: map<string, string>, tp: Transport,
                                pre: string, rest: string)
    requires req.userAgent.None?
    requires Complete(req, templates)
    requires Strings.NoMatchStartsIn(pre, HeadlessMarker)
    requires !Strings.Occurs(rest, HeadlessMarker)
    requires Plain(pre) && Plain(rest)
    requires ReportsHeadless(tp(ExpectedPrefix(req, templates), GetVersion), pre, rest)
    ensures ResolvedUserAgent(req, templates, tp) == "(\"" + pre + ChromeToken + rest + "\")"
  {
    RewriteFetchedHeadless(Literal(JString(pre + HeadlessMarker + rest)), pre, rest);
  }

  /** The evidently intended read of the version reply's user agent: the
      string's own text, as `Value::as_str` gives it, rather than its JSON
      literal. */
  function UserAgentTextOf(v: Value): Option<string>
  {
    match v
    case JString(x) => Some(x)
    case JBool(_) => None
  }

  /** With the intended read, a reply holding the marker once is sent with
      the token replaced and no quotes, exactly like a supplied user agent:
      a reply of `HeadlessChrome/100.0` becomes `(Chrome/100.0)`. */
  lemma IntendedFetchedHeadless(pre: string, rest: string)
    requires Strings.NoMatchStartsIn(pre, HeadlessMarker)
    requires !Strings.Occurs(rest, HeadlessMarker)
    requires pre == [] || !Strings.IsWhitespace(pre[0])
    requires rest == [] || !Strings.IsWhitespace(rest[|rest| - 1])
    ensures RewriteUserAgent(UserAgentTextOf(JString(pre + HeadlessMarker + rest)).value)
         == "(" + pre + ChromeToken + rest + ")"
  {
    RewriteSuppliedHeadless(pre + HeadlessMarker + rest, pre, rest);
  }

  /** The read as written and the intended read disagree on every such
      reply: inside the parentheses the first starts with a quote, the
      second with the reply's own first character. */
  lemma FetchedQuotesDiffer(pre: string, rest: string)
    requires Strings.NoMatchStartsIn(pre, HeadlessMarker)
    requires !Strings.Occurs(rest, HeadlessMarker)
    requires Plain(pre) && Plain(rest)
    requires pre == [] || !Strings.IsWhitespace(pre[0])
    requires rest == [] || !Strings.IsWhitespace(rest[|rest| - 1])
    ensures RewriteUserAgent(Literal(JString(pre + HeadlessMarker + rest)))
         != RewriteUserAgent(UserAgentTextOf(JString(pre + HeadlessMarker + rest)).value)
  {
    RewriteFetchedHeadless(Literal(JString(pre + HeadlessMarker + rest)), pre, rest);
    IntendedFetchedHeadless(pre, rest);
    SecondCharacters(pre, ChromeToken, rest);
    assert (pre + ChromeToken)[0] == if pre == [] then 'C' else pre[0];
  }

  /** The second character of each parenthesised form: the quote, or the
      text's own first character. */
  lemma SecondCharacters(a: string, b: string, c: string)
    requires b != []
    ensures ("(\"" + a + b + c + "\")")[1] == '"'
    ensures ("(" + a + b + c + ")")[1] == (a + b)[0]
  {
  }

  /** With nothing supplied, a version reply whose user agent holds
      `HeadlessChrome` once, around plain text, is sent with the token
      replaced and the JSON quotes kept, whatever other fields the reply
      has: a user agent of `Mozilla/5.0 HeadlessChrome/100.0` becomes
      `("Mozilla/5.0 Chrome/100.0")`. */
  lemma FetchedHeadlessActivation(req: Request, templates: map<string, string>, tp: Transport,
                                  pre: string, rest: string)
    requires req == Defaults
    requires Complete(req, templates)
    requires Strings.NoMatchStartsIn(pre, HeadlessMarker)
    requires !Strings.Occurs(rest, HeadlessMarker)
    requires Plain(pre) && Plain(rest)
    ensures var t := Activate(req, templates, tp).trace;
      && ReportsHeadless(tp(ExpectedPrefix(req, templates), GetVersion), pre, rest)
      && Activate(req, templates, tp).outcome.Done?
      ==> |t| == 15
          && t[11] == SetUserAgent("(\"" + pre + ChromeToken + rest + "\")", "en-US,en", "None")
  {
    if && ReportsHeadless(tp(ExpectedPrefix(req, templates), GetVersion), pre, rest)
       && Activate(req, templates, tp).outcome.Done? {
      ResolvedFetchedHeadless(req, templates, tp, pre, rest);
      DefaultActivation(req, templates, tp);
    }
  }

  // ---------------------------------------------------------------------------
  // Templates that cannot be read
  // ---------------------------------------------------------------------------

  /** Every template `steps` read is in both maps, with the same text. */
  predicate ReadsAgree(steps: seq<Step>, templates: map<string, string>,
                       full: map<string, string>)
  {
    forall i | 0 <= i < |steps| && steps[i].Script? ::
      && steps[i].path in templates && steps[i].path in full
      && templates[steps[i].path] == full[steps[i].path]
  }

  /** Steps whose templates read the same in two maps run the same. */
  lemma {:induction false} RunStepsAgree(steps: seq<Step>, templates: map<string, string>,
                                         full: map<string, string>, tp: Transport,
                                         trace: seq<Command>)
    requires ReadsAgree(steps, templates, full)
    ensures RunSteps(steps, templates, tp, trace) == RunSteps(steps, full, tp, trace)
    decreases |steps|
  {
    if |steps| > 0 {
      var first := ExecStep(steps[0], templates, tp, trace);
      assert first == ExecStep(steps[0], full, tp, trace);
      if first.outcome.Done? {
        forall i | 0 <= i < |steps[1..]| && steps[1..][i].Script?
          ensures && steps[1..][i].path in templates && steps[1..][i].path in full
                  && templates[steps[1..][i].path] == full[steps[1..][i].path]
        {
          assert steps[1..][i] == steps[i + 1];
        }
        RunStepsAgree(steps[1..], templates, full, tp, first.trace);
      }
    }
  }

  /** The first `k` script steps correspond to the first `k` registrations. */
  lemma {:induction false} CorrespondsTake(steps: seq<Step>, cmds: seq<Command>,
                                           templates: map<string, string>, k: nat)
    requires Corresponds(steps, cmds, templates)
    requires k <= |steps|
    ensures Corresponds(steps[..k], cmds[..k], templates)
    decreases k
  {
    if k > 0 {
      CorrespondsTake(steps[1..], cmds[1..], templates, k - 1);
      assert steps[..k][1..] == steps[1..][..k - 1] && cmds[..k][1..] == cmds[1..][..k - 1];
    }
  }

  /** Acceptance of the first `n` commands does not depend on what follows. */
  lemma AcceptedTake(tp: Transport, u: seq<Command>, n: nat)
    requires n <= |u|
    ensures AcceptedFrom(tp, u[..n], 0, n) <==> AcceptedFrom(tp, u, 0, n)
  {
    assert forall k | 0 <= k < n :: u[..n][..k] == u[..k] && u[..n][k] == u[k];
  }

  /** How many commands the first `k` steps of the plan issue when all of
      them are accepted: one per registration, and for the user-agent step
      the override plus, without a supplied user agent, the version query. */
  function IssuedBefore(req: Request, k: nat): nat
  {
    if k <= 10 then k else k + (if req.userAgent.None? then 1 else 0)
  }

  /** After the ten registrations, the user-agent step and the first `j`
      epilogue steps run as the override and the first `j` registrations of
      the reference suffix, or panic after the version query. */
  lemma AfterPreludeUpTo(req: Request, templates: map<string, string>, tp: Transport, j: nat)
    requires Complete(req, templates)
    requires j <= |Epilogue(req)|
    ensures |ExpectedSuffix(req, templates)| == |Epilogue(req)|
    ensures var p := ExpectedPrefix(req, templates);
      var rest := [UserAgentOverride(req.userAgent, req.languages, req.platform)]
                  + Epilogue(req)[..j];
      if UserAgentKeyMissing(req, templates, tp)
      then RunSteps(rest, templates, tp, p) == Run(p + [GetVersion], Panicked(UnwrapNonePanic))
      else RunSteps(rest, templates, tp, p)
           == RunCmds(ExpectedOverride(req, ResolvedUserAgent(req, templates, tp))
                      + ExpectedSuffix(req, templates)[..j], tp, p)
  {
    var p := ExpectedPrefix(req, templates);
    var ua := ResolvedUserAgent(req, templates, tp);
    var ov := ExpectedOverride(req, ua);
    var sx := ExpectedSuffix(req, templates)[..j];
    var ep := Epilogue(req)[..j];
    var uaStep := UserAgentOverride(req.userAgent, req.languages, req.platform);
    var rest := [uaStep] + ep;
    assert rest[0] == uaStep && rest[1..] == ep;
    EpilogueCorresponds(req, templates);
    var x := ExecStep(uaStep, templates, tp, p);
    if !UserAgentKeyMissing(req, templates, tp) {
      UserAgentStepRunsAsCommands(req.userAgent, uaStep.acceptLanguage, uaStep.platform, ua,
                                  templates, tp, p);
      RunCmdsAppend(ov, sx, tp, p);
      if x.outcome.Done? {
        RunCmdsPrefix(ov, tp, p);
        CorrespondsTake(Epilogue(req), ExpectedSuffix(req, templates), templates, j);
        ScriptsRunAsCommands(ep, sx, templates, tp, x.trace);
      }
    }
  }

  /** Up to the user-agent step, the first `k` steps run as the first `k`
      registrations. */
  lemma PreludeTakeRuns(req: Request, templates: map<string, string>, tp: Transport, k: nat)
    requires Complete(req, templates)
    requires k <= 10
    ensures |Plan(req)| > 10
    ensures RunSteps(Plan(req)[..k], templates, tp, [])
         == RunCmds(ExpectedPrefix(req, templates)[..k], tp, [])
  {
    var p := ExpectedPrefix(req, templates);
    assert Plan(req)[..k] == Prelude(req)[..k];
    PreludeCorresponds(req, templates);
    CorrespondsTake(Prelude(req), p, templates, k);
    ScriptsRunAsCommands(Prelude(req)[..k], p[..k], templates, tp, []);
  }

  /** Past the user-agent step, the first `k` steps are the prelude, the
      user-agent step and part of the epilogue, and the commands they issue
      are the prefix, the override and the same part of the suffix. */
  lemma LaterTakeShape(req: Request, templates: map<string, string>, ua: string, k: nat)
    requires Complete(req, templates)
    requires 10 < k <= |Plan(req)|
    ensures |ExpectedSuffix(req, templates)| == |Epilogue(req)| == |Plan(req)| - 11
    ensures Plan(req)[..k]
         == Prelude(req) + ([UserAgentOverride(req.userAgent, req.languages, req.platform)]
                            + Epilogue(req)[..k - 11])
    ensures IssuedBefore(req, k) <= |ExpectedTrace(req, templates, ua)|
    ensures ExpectedTrace(req, templates, ua)[..IssuedBefore(req, k)]
         == ExpectedPrefix(req, templates)
            + (ExpectedOverride(req, ua) + ExpectedSuffix(req, templates)[..k - 11])
  {
    var e := ExpectedTrace(req, templates, ua);
    var p := ExpectedPrefix(req, templates);
    var ov := ExpectedOverride(req, ua);
    var sx := ExpectedSuffix(req, templates);
    assert e == p + ov + sx;
    assert Plan(req) == Prelude(req) + ([UserAgentOverride(req.userAgent, req.languages, req.platform)]
                                        + Epilogue(req));
  }

  /** Past the user-agent step, the first `k` steps run as the reference
      trace up to the matching epilogue registration, unless the version
      reply has no user agent. */
  lemma LaterTakeRuns(req: Request, templates: map<string, string>, tp: Transport, k: nat)
    requires Complete(req, templates)
    requires 10 < k <= |Plan(req)|
    ensures var e := ExpectedTrace(req, templates, ResolvedUserAgent(req, templates, tp));
      var p := ExpectedPrefix(req, templates);
      var n := IssuedBefore(req, k);
      && n <= |e|
      && (if UserAgentKeyMissing(req, templates, tp) && AcceptedFrom(tp, p, 0, |p|)
          then RunSteps(Plan(req)[..k], templates, tp, [])
               == Run(p + [GetVersion], Panicked(UnwrapNonePanic))
          else RunSteps(Plan(req)[..k], templates, tp, []) == RunCmds(e[..n], tp, []))
  {
    var ua := ResolvedUserAgent(req, templates, tp);
    var p := ExpectedPrefix(req, templates);
    var ov := ExpectedOverride(req, ua);
    var sx := ExpectedSuffix(req, templates);
    var j := k - 11;
    var rest := [UserAgentOverride(req.userAgent, req.languages, req.platform)]
                + Epilogue(req)[..j];
    AfterPreludeUpTo(req, templates, tp, j);
    LaterTakeShape(req, templates, ua, k);
    RunStepsAppend(Prelude(req), rest, templates, tp, []);
    PreludeRuns(req, templates, tp);
    RunCmdsAppend(p, ov + sx[..j], tp, []);
  }

  /** The first `k` steps of the plan run as the first commands of the
      reference trace, except that after the ten registrations a version
      reply without a user agent panics. */
  lemma PlanPrefixRuns(req: Request, templates: map<string, string>, tp: Transport, k: nat)
    requires Complete(req, templates)
    requires k <= |Plan(req)|
    ensures var e := ExpectedTrace(req, templates, ResolvedUserAgent(req, templates, tp));
      var p := ExpectedPrefix(req, templates);
      var n := IssuedBefore(req, k);
      && n <= |e|
      && (if k > 10 && UserAgentKeyMissing(req, templates, tp) && AcceptedFrom(tp, p, 0, |p|)
          then RunSteps(Plan(req)[..k], templates, tp, [])
               == Run(p + [GetVersion], Panicked(UnwrapNonePanic))
          else RunSteps(Plan(req)[..k], templates, tp, []) == RunCmds(e[..n], tp, []))
  {
    if k <= 10 {
      var e := ExpectedTrace(req, templates, ResolvedUserAgent(req, templates, tp));
      var p := ExpectedPrefix(req, templates);
      assert e[..k] == p[..k];
      PreludeTakeRuns(req, templates, tp, k);
    } else {
      LaterTakeRuns(req, templates, tp, k);
    }
  }

  /** A fail-fast run of the first `n` commands of a list finishes exactly
      when they are all accepted, and has then issued them. */
  lemma RunCmdsTake(cmds: seq<Command>, tp: Transport, n: nat)
    requires n <= |cmds|
    ensures var r := RunCmds(cmds[..n], tp, []);
      && (r.outcome.Done? <==> AcceptedFrom(tp, cmds, 0, n))
      && (r.outcome.Done? ==> r.trace == cmds[..n])
  {
    RunCmdsDone(cmds[..n], tp, []);
    RunCmdsPrefix(cmds[..n], tp, []);
    AcceptedTake(tp, cmds, n);
    assert [] + cmds[..n] == cmds[..n];
  }

  /** A run whose `k`-th step reads a missing template: up to that step it
      runs as with `full`; when it gets there it panics naming the path. */
  lemma {:induction false} AbortAt(steps: seq<Step>, templates: map<string, string>,
                                   full: map<string, string>, tp: Transport, k: nat)
    requires k < |steps| && steps[k].Script? && steps[k].path !in templates
    requires ReadsAgree(steps[..k], templates, full)
    ensures var r := RunSteps(steps[..k], full, tp, []);
      && RunSteps(steps, templates, tp, [])
         == (if r.outcome.Done? then Run(r.trace, Panicked("Failed reading " + steps[k].path))
             else r)
      && (!r.outcome.Done? ==> RunSteps(steps, full, tp, []) == r)
  {
    assert steps == steps[..k] + steps[k..];
    assert steps[k..][0] == steps[k];
    RunStepsAppend(steps[..k], steps[k..], templates, tp, []);
    RunStepsAppend(steps[..k], steps[k..], full, tp, []);
    RunStepsAgree(steps[..k], templates, full, tp, []);
  }

  /** A template that cannot be read aborts the activation with a panic
      naming its path (src/lib.rs:196), after the commands of the steps
      before it and before any later one. `full` is any map holding every
      template, agreeing with `templates` on those the earlier steps read.
      When every earlier command was accepted (and, past the override, the
      version reply had a user agent) the activation issued exactly the
      first commands of the reference trace and then panicked; otherwise it
      ended earlier, exactly as it would have with every template. */
  lemma MissingTemplateAborts(req: Request, templates: map<string, string>,
                              full: map<string, string>, tp: Transport, k: nat)
    requires Complete(req, full)
    requires k < |Plan(req)| && Plan(req)[k].Script? && Plan(req)[k].path !in templates
    requires ReadsAgree(Plan(req)[..k], templates, full)
    ensures var e := ExpectedTrace(req, full, ResolvedUserAgent(req, full, tp));
      var n := IssuedBefore(req, k);
      && n <= |e|
      && (if AcceptedFrom(tp, e, 0, n) && !(k > 10 && UserAgentKeyMissing(req, full, tp))
          then Activate(req, templates, tp)
               == Run(e[..n], Panicked("Failed reading " + Plan(req)[k].path))
          else Activate(req, templates, tp) == Activate(req, full, tp))
  {
    var e := ExpectedTrace(req, full, ResolvedUserAgent(req, full, tp));
    var p := ExpectedPrefix(req, full);
    var n := IssuedBefore(req, k);
    AbortAt(Plan(req), templates, full, tp, k);
    PlanPrefixRuns(req, full, tp, k);
    RunCmdsTake(e, tp, n);
    if k > 10 && AcceptedFrom(tp, e, 0, n) {
      assert p <= e[..n];
      AcceptedTake(tp, e, n);
      AcceptedPrefix(tp, p, e[..n]);
    }
  }

  /** Even when a template cannot be read, the commands issued are a prefix
      of the reference trace of any map that completes the templates. */
  lemma MissingTemplateTraceIsPrefix(req: Request, templates: map<string, string>,
                                     full: map<string, string>, tp: Transport, k: nat)
    requires Complete(req, full)
    requires k < |Plan(req)| && Plan(req)[k].Script? && Plan(req)[k].path !in templates
    requires ReadsAgree(Plan(req)[..k], templates, full)
    ensures Activate(req, templates, tp).trace
         <= ExpectedTrace(req, full, ResolvedUserAgent(req, full, tp))
  {
    MissingTemplateAborts(req, templates, full, tp, k);
    ActivateTraceIsPrefix(req, full, tp);
  }
}

=== FILE: json.dfy ===
/** The JSON values the activation sequence passes to its templates, their
    literal text as `serde_json`'s `Value::to_string` writes it, and a small
    reader for that text. The reader is the partner of the writer: every
    literal, and every comma-separated list of literals, reads back as the
    values it was written from. */
module Json {
  import opened Wrappers

  /** The argument kinds the evasions use: `json!(bool)` and `json!(&str)`. */
  datatype Value = JBool(b: bool) | JString(s: string)

  /** `json!(x)` for each string of a list, in order. */
  function StringValues(xs: seq<string>): (r: seq<Value>)
    ensures |r| == |xs|
    ensures forall i :: 0 <= i < |xs| ==> r[i] == JString(xs[i])
  {
    if |xs| == 0 then [] else [JString(xs[0])] + StringValues(xs[1..])
  }

  // ---------------------------------------------------------------------------
  // Writing
  // ---------------------------------------------------------------------------

  /** Lower-case hexadecimal digit of `n`. */
  function HexDigit(n: nat): char
    requires n < 16
  {
    if n < 10 then ('0' as int + n) as char else ('a' as int + n - 10) as char
  }

  /** How one character appears inside a JSON string literal: quote and
      backslash escaped, the five short control escapes, every other control
      character as `\u00XX`, everything else as itself. */
  function EscapeChar(c: char): string
  {
    if c == '"' then "\\\""
    else if c == '\\' then "\\\\"
    else if c == '\U{8}' then "\\b"
    else if c == '\U{C}' then "\\f"
    else if c == '\n' then "\\n"
    else if c == '\r' then "\\r"
    else if c == '\t' then "\\t"
    else if (c as int) < 0x20 then "\\u00" + [HexDigit(c as int / 16), HexDigit(c as int % 16)]
    else [c]
  }

  function Escape(s: string): string
  {
    if |s| == 0 then "" else EscapeChar(s[0]) + Escape(s[1..])
  }

  /** The literal text of a value. */
  function Literal(v: Value): string
  {
    match v
    case JBool(b) => if b then "true" else "false"
    case JString(s) => "\"" + Escape(s) + "\""
  }

  // ---------------------------------------------------------------------------
  // Reading
  // ---------------------------------------------------------------------------

  function HexValue(c: char): (r: Option<nat>)
    ensures r.Some? ==> r.value < 16
  {
    if '0' <= c <= '9' then Some(c as int - '0' as int)
    else if 'a' <= c <= 'f' then Some(c as int - 'a' as int + 10)
    else if 'A' <= c <= 'F' then Some(c as int - 'A' as int + 10)
    else None
  }

  /** Reads the escape that follows a backslash; yields the character and
      what is left. */
  function Unescape(s: string): (r: Option<(char, string)>)
    ensures r.Some? ==> |r.value.1| < |s|
  {
    if |s| == 0 then None
    else if s[0] == '"' then Some(('"', s[1..]))
    else if s[0] == '\\' then Some(('\\', s[1..]))
    else if s[0] == '/' then Some(('/', s[1..]))
    else if s[0] == 'b' then Some(('\U{8}', s[1..]))
    else if s[0] == 'f' then Some(('\U{C}', s[1..]))
    else if s[0] == 'n' then Some(('\n', s[1..]))
    else if s[0] == 'r' then Some(('\r', s[1..]))
    else if s[0] == 't' then Some(('\t', s[1..]))
    else if s[0] == 'u' && |s| >= 5 then
      match (HexValue(s[1]), HexValue(s[2]), HexValue(s[3]), HexValue(s[4]))
      case (Some(d3), Some(d2), Some(d1), Some(d0)) =>
        var n := d3 * 4096 + d2 * 256 + d1 * 16 + d0;
        if 0xD800 <= n < 0xE000 then None else Some((n as char, s[5..]))
      case _ => None
    else None
  }

  /** Reads the body of a string literal up to its closing quote; yields the
      decoded text and what follows the quote. */
  function StringBody(s: string): (r: Option<(string, string)>)
    ensures r.Some? ==> |r.value.1| < |s|
    decreases |s|
  {
    if |s| == 0 then None
    else if s[0] == '"' then Some(([], s[1..]))
    else if s[0] == '\\' then
      match Unescape(s[1..])
      case None => None
      case Some((c, rest)) =>
        match StringBody(rest)
        case None => None
        case Some((body, tail)) => Some(([c] + body, tail))
    else
      match StringBody(s[1..])
      case None => None
      case Some((body, tail)) => Some(([s[0]] + body, tail))
  }

  /** Reads one literal from the front of `s`. */
  function ReadValue(s: string): (r: Option<(Value, string)>)
    ensures r.Some? ==> |r.value.1| < |s|
  {
    if |s| >= 4 && s[..4] == "true" then Some((JBool(true), s[4..]))
    else if |s| >= 5 && s[..5] == "false" then Some((JBool(false), s[5..]))
    else if |s| >= 1 && s[0] == '"' then
      match StringBody(s[1..])
      case None => None
      case Some((body, tail)) => Some((JString(body), tail))
    else None
  }

  /** Reads one or more comma-separated literals that make up all of `s`. */
  function ReadItems(s: string): Option<seq<Value>>
    decreases |s|
  {
    match ReadValue(s)
    case None => None
    case Some((v, rest)) =>
      if |rest| == 0 then Some([v])
      else if rest[0] != ',' then None
      else
        match ReadItems(rest[1..])
        case None => None
        case Some(vs) => Some([v] + vs)
  }

  /** Reads a comma-separated list of literals, possibly empty. */
  function ReadList(s: string): Option<seq<Value>>
  {
    if |s| == 0 then Some([]) else ReadItems(s)
  }

  // ---------------------------------------------------------------------------
  // Round trip
  // ---------------------------------------------------------------------------

  lemma HexRoundTrip(n: nat)
    requires n < 16
    ensures HexValue(HexDigit(n)) == Some(n)
  {
  }

  /** One escaped character reads back as itself, whatever follows. */
  lemma EscapeCharReads(c: char, tail: string)
    ensures StringBody(EscapeChar(c) + tail) ==
      match StringBody(tail)
      case None => None
      case Some((body, rest)) => Some(([c] + body, rest))
  {
    var s := EscapeChar(c) + tail;
    if c == '"' || c == '\\' || c == '\U{8}' || c == '\U{C}' || c == '\n' || c == '\r' || c == '\t' {
      assert |EscapeChar(c)| == 2;
      assert s[1..][1..] == tail;
    } else if (c as int) < 0x20 {
      var hi, lo := c as int / 16, c as int % 16;
      HexRoundTrip(hi);
      HexRoundTrip(lo);
      HexRoundTrip(0);
      assert s[1..] == "u00" + [HexDigit(hi), HexDigit(lo)] + tail;
      assert s[1..][5..] == tail;
      assert hi * 16 + lo == c as int;
    } else {
      assert s[1..] == tail;
    }
  }

  lemma {:induction false} EscapeReads(x: string, tail: string)
    ensures StringBody(Escape(x) + "\"" + tail) == Some((x, tail))
    decreases |x|
  {
    if |x| == 0 {
      assert Escape(x) + "\"" + tail == "\"" + tail;
    } else {
      var rest := Escape(x[1..]) + "\"" + tail;
      assert Escape(x) + "\"" + tail == EscapeChar(x[0]) + rest;
      EscapeReads(x[1..], tail);
      EscapeCharReads(x[0], rest);
      assert [x[0]] + x[1..] == x;
    }
  }

  /** Text that starts with a quote reads as a string literal. */
  lemma ReadQuoted(s: string)
    requires |s| >= 1 && s[0] == '"'
    ensures ReadValue(s) == match StringBody(s[1..])
      case None => None
      case Some((body, tail)) => Some((JString(body), tail))
  {
    assert |s| < 4 || s[..4][0] == '"';
    assert |s| < 5 || s[..5][0] == '"';
  }

  lemma StringLiteralReads(x: string, tail: string)
    ensures ReadValue(Literal(JString(x)) + tail) == Some((JString(x), tail))
  {
    var s := Literal(JString(x)) + tail;
    assert s == "\"" + (Escape(x) + "\"" + tail);
    ReadQuoted(s);
    EscapeReads(x, tail);
  }

  /** Every literal reads back as its value, whatever follows it. */
  lemma LiteralReads(v: Value, tail: string)
    ensures ReadValue(Literal(v) + tail) == Some((v, tail))
  {
    var s := Literal(v) + tail;
    match v
    case JBool(b) =>
      if b {
        assert s[..4] == "true";
      } else {
        assert s[..4][0] == 'f';
        assert s[..5] == "false";
      }
    case JString(x) =>
      StringLiteralReads(x, tail);
  }

  /** Text with no quote, backslash or control character is written as is. */
  lemma {:induction false} EscapePlain(x: string)
    requires forall i :: 0 <= i < |x| ==> x[i] != '"' && x[i] != '\\' && (x[i] as int) >= 0x20
    ensures Escape(x) == x
    decreases |x|
  {
    if |x| > 0 {
      EscapePlain(x[1..]);
      assert [x[0]] + x[1..] == x;
    }
  }
}

=== FILE: render.dfy ===
/** The template renderer (`evaluate`, src/lib.rs:203-214): wraps a template
    body and its arguments into a self-invoking script,
    `(<template>)(<arg1>,<arg2>,...)`. `ArgsOf` reads the arguments back out
    of a rendered script, which shows that rendering keeps every argument,
    in order, and adds none. */
module Render {
  import opened Wrappers
  import Strings
  import Json

  /** The literal text of each argument, in order. */
  function Literals(args: seq<Json.Value>): (r: seq<string>)
    ensures |r| == |args|
    ensures forall i :: 0 <= i < |args| ==> r[i] == Json.Literal(args[i])
  {
    if |args| == 0 then [] else [Json.Literal(args[0])] + Literals(args[1..])
  }

  /** The argument list as it appears between the call's parentheses. */
  function ArgList(args: seq<Json.Value>): string
  {
    Strings.Join(",", Literals(args))
  }

  /** `evaluate(code, maybe_args)`. The source returns it wrapped in `Ok`;
      nothing in it can fail, so the model returns the text itself. */
  function Evaluate(code: string, maybeArgs: Option<seq<Json.Value>>): string
  {
    var args := match maybeArgs
      case Some(a) => ArgList(a)
      case None => "";
    "(" + code + ")(" + args + ")"
  }

  /** Recovers the arguments of a script rendered from `code`, or `None`
      when the text is not such a script. */
  function ArgsOf(script: string, code: string): Option<seq<Json.Value>>
  {
    var head := "(" + code + ")(";
    if |script| > |head| && script[..|head|] == head && script[|script| - 1] == ')'
    then Json.ReadList(script[|head|..|script| - 1])
    else None
  }

  lemma {:induction false} ItemsRoundTrip(args: seq<Json.Value>)
    requires |args| >= 1
    ensures Json.ReadItems(ArgList(args)) == Some(args)
    decreases |args|
  {
    var lits := Literals(args);
    if |args| == 1 {
      assert ArgList(args) == Json.Literal(args[0]) + "";
      Json.LiteralReads(args[0], "");
      assert Json.ReadValue(ArgList(args)) == Some((args[0], ""));
      assert args == [args[0]];
    } else {
      assert lits[1..] == Literals(args[1..]);
      var more := ArgList(args[1..]);
      assert ArgList(args) == Json.Literal(args[0]) + ("," + more);
      Json.LiteralReads(args[0], "," + more);
      assert ("," + more)[1..] == more;
      ItemsRoundTrip(args[1..]);
      assert [args[0]] + args[1..] == args;
    }
  }

  /** The argument list reads back as exactly the arguments: same count,
      same order, same values. */
  lemma ArgListRoundTrip(args: seq<Json.Value>)
    ensures Json.ReadList(ArgList(args)) == Some(args)
  {
    if |args| > 0 {
      assert |Json.Literal(args[0])| > 0;
      assert |ArgList(args)| > 0 by {
        if |args| > 1 {
          assert ArgList(args) == Json.Literal(args[0]) + "," + ArgList(args[1..]);
        }
      }
      ItemsRoundTrip(args);
    }
  }

  /** A rendered script hands the template exactly the given arguments; with
      no argument list it hands it none. */
  lemma EvaluateRoundTrip(code: string, maybeArgs: Option<seq<Json.Value>>)
    ensures ArgsOf(Evaluate(code, maybeArgs), code) == Some(maybeArgs.GetOr([]))
  {
    var head := "(" + code + ")(";
    var args := maybeArgs.GetOr([]);
    var script := Evaluate(code, maybeArgs);
    assert script == head + ArgList(args) + ")";
    assert script[..|head|] == head;
    assert script[|head|..|script| - 1] == ArgList(args);
    ArgListRoundTrip(args);
  }

  /** Rendering is injective in the arguments: two argument lists that render
      to the same script are the same list. */
  lemma EvaluateInjective(code: string, a: seq<Json.Value>, b: seq<Json.Value>)
    requires Evaluate(code, Some(a)) == Evaluate(code, Some(b))
    ensures a == b
  {
    EvaluateRoundTrip(code, Some(a));
    EvaluateRoundTrip(code, Some(b));
  }

  /** No argument list and an empty one render alike, as `(<code>)()`: there
      is no stray comma. */
  lemma EvaluateNoArgs(code: string)
    ensures Evaluate(code, None) == Evaluate(code, Some([]))
    ensures ArgsOf(Evaluate(code, None), code) == Some([])
    ensures |Evaluate(code, None)| == |code| + 4
  {
    EvaluateRoundTrip(code, None);
  }
}

=== FILE: stealth.dfy ===
/** The activation sequence (`activate_stealth`, src/lib.rs:6-193): resolves
    every optional setting to its default, renders each evasion template and
    registers it with the browser session, and overrides the user agent, one
    command at a time, stopping at the first failure.

    The session is an abstract transport: given the commands already issued
    and the next one, it either accepts it (with a result object) or rejects
    it. Templates are a map from path to text. Activation is then a pure
    function from the request, the templates and the transport to the trace
    of issued commands and an outcome. */
module Stealth {
  import opened Wrappers
  import Strings
  import Json
  import Render

  // ---------------------------------------------------------------------------
  // Data
  // ---------------------------------------------------------------------------

  /** The optional parameters of `activate_stealth` (src/lib.rs:7-15). */
  datatype Request = Request(
    userAgent: Option<string>,
    languages: Option<seq<string>>,
    vendor: Option<string>,
    platform: Option<string>,
    webglVendor: Option<string>,
    renderer: Option<string>,
    fixHairline: Option<bool>,
    runOnInsecureOrigins: Option<bool>)

  /** The request with every field left out. */
  const Defaults := Request(None, None, None, None, None, None, None, None)

  /** A session command. `AddScript` is `Page.addScriptToEvaluateOnNewDocument`
      with parameters `{source}`; `GetVersion` is `Browser.getVersion`;
      `SetUserAgent` is `Network.setUserAgentOverride` with parameters
      `{userAgent, acceptLanguage, platform}`. */
  datatype Command =
    | AddScript(source: string)
    | GetVersion
    | SetUserAgent(userAgent: string, acceptLanguage: string, platform: string)
  {
    /** The protocol method name the command is sent under. */
    function Method(): string
    {
      match this
      case AddScript(_) => "Page.addScriptToEvaluateOnNewDocument"
      case GetVersion => "Browser.getVersion"
      case SetUserAgent(_, _, _) => "Network.setUserAgentOverride"
    }
  }

  /** The session's answer to one command. */
  datatype Reply = Accept(result: map<string, Json.Value>) | Reject(reason: string)

  /** The session: its reply to a command, given every command issued before. */
  type Transport = (seq<Command>, Command) -> Reply

  /** How an activation ends: `Ok(())`, an `Err` carrying the transport's
      reason, or a panic (a template that cannot be read, a version reply
      without a user agent). */
  datatype Outcome = Done | Failed(reason: string) | Panicked(message: string)

  /** The commands issued, in order, and how the activation ended. */
  datatype Run = Run(trace: seq<Command>, outcome: Outcome)

  // ---------------------------------------------------------------------------
  // Constants
  // ---------------------------------------------------------------------------

  const UtilsJs := "js/utils.js"
  const ChromeAppJs := "js/chrome.app.js"
  const ChromeRuntimeJs := "js/chrome.runtime.js"
  const IframeContentWindowJs := "js/iframe.contentWindow.js"
  const MediaCodecsJs := "js/media.codecs.js"
  const NavigatorLanguagesJs := "js/navigator.languages.js"
  const NavigatorPermissionsJs := "js/navigator.permissions.js"
  const NavigatorPluginsJs := "js/navigator.plugins.js"
  const NavigatorVendorJs := "js/navigator.vendor.js"
  const NavigatorWebdriverJs := "js/navigator.webdriver.js"
  const WebglVendorJs := "js/webgl.vendor.js"
  const WindowOuterdimensionsJs := "js/window.outerdimensions.js"
  const HairlineFixJs := "js/hairline.fix.js"

  const DefaultLanguages: seq<string> := ["en-US", "en"]
  const DefaultVendor := "Google Inc."
  const DefaultPlatform := "None"
  const DefaultWebglVendor := "Intel Inc."
  const DefaultRenderer := "Intel Iris OpenGL Engine"

  /** The result key `Browser.getVersion` is read under. */
  const UserAgentKey := "userAgent"
  /** The token the user-agent rewrite replaces, and its replacement. */
  const HeadlessMarker := "HeadlessChrome"
  const ChromeToken := "Chrome"
  /** The message of the panic raised by `unwrap` on a missing field. */
  const UnwrapNonePanic := "called `Option::unwrap()` on a `None` value"

  // ---------------------------------------------------------------------------
  // Steps
  // ---------------------------------------------------------------------------

  /** One evasion with its parameters resolved: a template registered with
      its arguments, or the user-agent override. */
  datatype Step =
    | Script(path: string, args: Option<seq<Json.Value>>)
    | UserAgentStep(supplied: Option<string>, acceptLanguage: string, platform: string)

  function WithUtils(): Step { Script(UtilsJs, None) }
  function ChromeApp(): Step { Script(ChromeAppJs, None) }

  function ChromeRuntime(runOnInsecureOrigins: Option<bool>): Step
  {
    Script(ChromeRuntimeJs, Some([Json.JBool(runOnInsecureOrigins.GetOr(false))]))
  }

  function IframeContentWindow(): Step { Script(IframeContentWindowJs, None) }
  function MediaCodecs(): Step { Script(MediaCodecsJs, None) }

  /** Each language tag becomes its own argument, in list order. */
  function NavigatorLanguages(languages: Option<seq<string>>): Step
  {
    Script(NavigatorLanguagesJs, Some(Json.StringValues(languages.GetOr(DefaultLanguages))))
  }

  function NavigatorPermissions(): Step { Script(NavigatorPermissionsJs, None) }
  function NavigatorPlugins(): Step { Script(NavigatorPluginsJs, None) }

  function NavigatorVendor(vendor: Option<string>): Step
  {
    Script(NavigatorVendorJs, Some([Json.JString(vendor.GetOr(DefaultVendor))]))
  }

  function NavigatorWebdriver(): Step { Script(NavigatorWebdriverJs, None) }

  /** The languages are resolved here a second time, from the same input, and
      joined with commas for the `Accept-Language` header. */
  function UserAgentOverride(userAgent: Option<string>, languages: Option<seq<string>>,
                             platform: Option<string>): Step
  {
    UserAgentStep(userAgent, Strings.Join(",", languages.GetOr(DefaultLanguages)),
                  platform.GetOr(DefaultPlatform))
  }

  function WebglVendorOverride(webglVendor: Option<string>, renderer: Option<string>): Step
  {
    Script(WebglVendorJs, Some([Json.JString(webglVendor.GetOr(DefaultWebglVendor)),
                                Json.JString(renderer.GetOr(DefaultRenderer))]))
  }

  function WindowOuterdimensions(): Step { Script(WindowOuterdimensionsJs, None) }
  function HairlineFix(): Step { Script(HairlineFixJs, None) }

  /** Whether the hairline fix is applied: unless explicitly turned off. */
  predicate HairlineEnabled(req: Request)
  {
    req.fixHairline.GetOr(true)
  }

  /** The ten script evasions registered before the user-agent override
      (src/lib.rs:19-28). */
  function Prelude(req: Request): seq<Step>
  {
    [ WithUtils(),
      ChromeApp(),
      ChromeRuntime(req.runOnInsecureOrigins),
      IframeContentWindow(),
      MediaCodecs(),
      NavigatorLanguages(req.languages),
      NavigatorPermissions(),
      NavigatorPlugins(),
      NavigatorVendor(req.vendor),
      NavigatorWebdriver() ]
  }

  /** The evasions after the user-agent override (src/lib.rs:30-36). */
  function Epilogue(req: Request): seq<Step>
  {
    [ WebglVendorOverride(req.webglVendor, req.renderer),
      WindowOuterdimensions() ]
    + (if HairlineEnabled(req) then [HairlineFix()] else [])
  }

  /** The steps of one activation, in order (src/lib.rs:19-36). */
  function Plan(req: Request): seq<Step>
  {
    Prelude(req) + [UserAgentOverride(req.userAgent, req.languages, req.platform)] + Epilogue(req)
  }

  // ---------------------------------------------------------------------------
  // Execution
  // ---------------------------------------------------------------------------

  /** The user-agent rewrite (src/lib.rs:134-135): every headless marker
      becomes the plain token, then the result is trimmed and wrapped in
      parentheses. */
  function RewriteUserAgent(ua: string): (r: string)
    ensures |r| >= 2 && r[0] == '(' && r[|r| - 1] == ')'
    ensures Strings.Trim(r[1..|r| - 1]) == r[1..|r| - 1]
  {
    var inner := Strings.Trim(Strings.ReplaceAll(ua, HeadlessMarker, ChromeToken));
    Strings.TrimIdempotent(Strings.ReplaceAll(ua, HeadlessMarker, ChromeToken));
    var r := "(" + inner + ")";
    assert r[1..|r| - 1] == inner;
    r
  }

  /** Sends one command; the command is in the trace whether or not the
      session accepts it. */
  function Issue(tp: Transport, trace: seq<Command>, cmd: Command): (r: Run)
    ensures r.trace == trace + [cmd]
    ensures r.outcome.Done? <==> tp(trace, cmd).Accept?
    ensures r.outcome.Failed? <==> tp(trace, cmd).Reject?
    ensures r.outcome.Failed? ==> r.outcome.reason == tp(trace, cmd).reason
  {
    match tp(trace, cmd)
    case Accept(_) => Run(trace + [cmd], Done)
    case Reject(e) => Run(trace + [cmd], Failed(e))
  }

  /** Executes one step after `trace`. A script step reads its template (a
      panic if it is missing; src/lib.rs:183,196), renders it and registers
      it (src/lib.rs:178-193). The user-agent step asks the browser for its
      user agent only when none was supplied, reading the JSON text of the
      reply's `userAgent` field (src/lib.rs:126-132), rewrites it and sends
      the override (src/lib.rs:134-146). */
  function ExecStep(step: Step, templates: map<string, string>, tp: Transport,
                    trace: seq<Command>): (r: Run)
    ensures trace <= r.trace
  {
    match step
    case Script(path, args) =>
      if path !in templates then Run(trace, Panicked("Failed reading " + path))
      else Issue(tp, trace, AddScript(Render.Evaluate(templates[path], args)))
    case UserAgentStep(supplied, acceptLanguage, platform) =>
      match supplied
      case Some(ua) =>
        Issue(tp, trace, SetUserAgent(RewriteUserAgent(ua), acceptLanguage, platform))
      case None =>
        match tp(trace, GetVersion)
        case Reject(e) => Run(trace + [GetVersion], Failed(e))
        case Accept(result) =>
          if UserAgentKey !in result
          then Run(trace + [GetVersion], Panicked(UnwrapNonePanic))
          else
            var fetched := Json.Literal(result[UserAgentKey]);
            Issue(tp, trace + [GetVersion],
                  SetUserAgent(RewriteUserAgent(fetched), acceptLanguage, platform))
  }

  /** Executes the steps in order; the first step that does not finish with
      `Done` ends the run (the `?` after every call in src/lib.rs:19-36). */
  function RunSteps(steps: seq<Step>, templates: map<string, string>, tp: Transport,
                    trace: seq<Command>): (r: Run)
    ensures trace <= r.trace
    decreases |steps|
  {
    if |steps| == 0 then Run(trace, Done)
    else
      var first := ExecStep(steps[0], templates, tp, trace);
      if first.outcome.Done? then RunSteps(steps[1..], templates, tp, first.trace)
      else first
  }

  /** `activate_stealth` against a fresh session. */
  function Activate(req: Request, templates: map<string, string>, tp: Transport): Run
  {
    RunSteps(Plan(req), templates, tp, [])
  }
}

=== FILE: strings.dfy ===
/** The string operations the activation sequence relies on: `join`, Rust's
    `str::trim` and `str::replace`, plus `Split`, the inverse of `Join`. */
module Strings {

  // ---------------------------------------------------------------------------
  // Join and its inverse
  // ---------------------------------------------------------------------------

  /** `parts.join(sep)`: the parts in order, `sep` between neighbours. */
  function Join(sep: string, parts: seq<string>): string
  {
    if |parts| == 0 then ""
    else if |parts| == 1 then parts[0]
    else parts[0] + sep + Join(sep, parts[1..])
  }

  /** Cuts `s` at every occurrence of `sep`; always at least one piece. */
  function Split(s: string, sep: char): (r: seq<string>)
    ensures |r| >= 1
    decreases |s|
  {
    if |s| == 0 then [""]
    else if s[0] == sep then [""] + Split(s[1..], sep)
    else
      var rest := Split(s[1..], sep);
      [[s[0]] + rest[0]] + rest[1..]
  }

  lemma {:induction false} SplitNoSeparator(p: string, sep: char)
    requires sep !in p
    ensures Split(p, sep) == [p]
    decreases |p|
  {
    if |p| > 0 {
      SplitNoSeparator(p[1..], sep);
      assert [p[0]] + p[1..] == p;
    }
  }

  lemma {:induction false} SplitAfterPiece(p: string, sep: char, t: string)
    requires sep !in p
    ensures Split(p + [sep] + t, sep) == [p] + Split(t, sep)
    decreases |p|
  {
    var s := p + [sep] + t;
    if |p| == 0 {
      assert s == [sep] + t;
      assert s[1..] == t;
    } else {
      assert s[1..] == p[1..] + [sep] + t;
      SplitAfterPiece(p[1..], sep, t);
      assert [p[0]] + p[1..] == p;
    }
  }

  /** Splitting a join at a separator no piece contains gives the pieces back:
      the joined text loses neither the count nor the order of its parts. */
  lemma {:induction false} SplitJoin(parts: seq<string>, sep: char)
    requires |parts| >= 1
    requires forall i :: 0 <= i < |parts| ==> sep !in parts[i]
    ensures Split(Join([sep], parts), sep) == parts
    decreases |parts|
  {
    if |parts| == 1 {
      SplitNoSeparator(parts[0], sep);
    } else {
      SplitJoin(parts[1..], sep);
      SplitAfterPiece(parts[0], sep, Join([sep], parts[1..]));
      assert [parts[0]] + parts[1..] == parts;
    }
  }

  // ---------------------------------------------------------------------------
  // Trim
  // ---------------------------------------------------------------------------

  /** Rust's `char::is_whitespace`: the Unicode White_Space property. */
  predicate IsWhitespace(c: char)
  {
    || '\t' <= c <= '\r'
    || c == ' '
    || c == '\U{85}'
    || c == '\U{A0}'
    || c == '\U{1680}'
    || '\U{2000}' <= c <= '\U{200A}'
    || c == '\U{2028}'
    || c == '\U{2029}'
    || c == '\U{202F}'
    || c == '\U{205F}'
    || c == '\U{3000}'
  }

  predicate AllWhitespace(s: string)
  {
    forall k :: 0 <= k < |s| ==> IsWhitespace(s[k])
  }

  /** Length of the longest all-whitespace prefix. */
  function LeadingWhitespace(s: string): (n: nat)
    ensures n <= |s|
    ensures AllWhitespace(s[..n])
    ensures n < |s| ==> !IsWhitespace(s[n])
    decreases |s|
  {
    if |s| == 0 || !IsWhitespace(s[0]) then 0
    else
      var m := LeadingWhitespace(s[1..]);
      assert s[..1 + m] == [s[0]] + s[1..][..m];
      1 + m
  }

  /** Length of the longest all-whitespace suffix. */
  function TrailingWhitespace(s: string): (n: nat)
    ensures n <= |s|
    ensures AllWhitespace(s[|s| - n..])
    ensures n < |s| ==> !IsWhitespace(s[|s| - n - 1])
    decreases |s|
  {
    if |s| == 0 || !IsWhitespace(s[|s| - 1]) then 0
    else
      var init := s[..|s| - 1];
      var m := TrailingWhitespace(init);
      assert s[|s| - (1 + m)..] == init[|init| - m..] + [s[|s| - 1]];
      1 + m
  }

  /** Rust's `str::trim`: drops leading and trailing whitespace. */
  function Trim(s: string): (r: string)
    ensures |r| <= |s|
    ensures r == [] || (!IsWhitespace(r[0]) && !IsWhitespace(r[|r| - 1]))
  {
    var front := s[LeadingWhitespace(s)..];
    front[..|front| - TrailingWhitespace(front)]
  }

  lemma {:induction false} LeadingWhitespaceAppend(a: string, t: string)
    requires AllWhitespace(a)
    ensures LeadingWhitespace(a + t) == |a| + LeadingWhitespace(t)
    decreases |a|
  {
    if |a| > 0 {
      assert (a + t)[1..] == a[1..] + t;
      LeadingWhitespaceAppend(a[1..], t);
    } else {
      assert a + t == t;
    }
  }

  lemma {:induction false} TrailingWhitespaceAppend(t: string, b: string)
    requires AllWhitespace(b)
    ensures TrailingWhitespace(t + b) == |b| + TrailingWhitespace(t)
    decreases |b|
  {
    if |b| > 0 {
      var init := b[..|b| - 1];
      assert (t + b)[..|t + b| - 1] == t + init;
      TrailingWhitespaceAppend(t, init);
    } else {
      assert t + b == t;
    }
  }

  /** Text that is whitespace throughout trims to nothing. */
  lemma TrimAllWhitespace(s: string)
    requires AllWhitespace(s)
    ensures Trim(s) == []
  {
    LeadingWhitespaceAppend(s, []);
    assert s + [] == s;
    assert s[|s|..] == [];
  }

  lemma LeadingWhitespaceBefore(a: string, t: string)
    requires AllWhitespace(a)
    requires t != [] && !IsWhitespace(t[0])
    ensures LeadingWhitespace(a + t) == |a|
  {
    LeadingWhitespaceAppend(a, t);
  }

  lemma TrailingWhitespaceAfter(t: string, b: string)
    requires AllWhitespace(b)
    requires t != [] && !IsWhitespace(t[|t| - 1])
    ensures TrailingWhitespace(t + b) == |b|
  {
    TrailingWhitespaceAppend(t, b);
  }

  lemma TrimUniqueNonEmpty(a: string, m: string, b: string)
    requires AllWhitespace(a) && AllWhitespace(b)
    requires m != [] && !IsWhitespace(m[0]) && !IsWhitespace(m[|m| - 1])
    ensures Trim(a + m + b) == m
  {
    var s := a + m + b;
    var front := m + b;
    assert s == a + front;
    assert front[0] == m[0];
    LeadingWhitespaceBefore(a, front);
    assert s[|a|..] == front;
    TrailingWhitespaceAfter(m, b);
    assert front[..|front| - |b|] == m;
  }

  /** Trim is characterised independently of how it is computed: if `s` is
      whitespace, then `m`, then whitespace, and `m` neither starts nor ends
      with whitespace, the trimmed text is exactly `m`. */
  lemma TrimUnique(a: string, m: string, b: string)
    requires AllWhitespace(a) && AllWhitespace(b)
    requires m == [] || (!IsWhitespace(m[0]) && !IsWhitespace(m[|m| - 1]))
    ensures Trim(a + m + b) == m
  {
    if m == [] {
      var s := a + m + b;
      assert AllWhitespace(s) by {
        forall k | 0 <= k < |s| ensures IsWhitespace(s[k]) {
          if k < |a| { assert s[k] == a[k]; } else { assert s[k] == b[k - |a|]; }
        }
      }
      TrimAllWhitespace(s);
    } else {
      TrimUniqueNonEmpty(a, m, b);
    }
  }

  /** Trimming twice is trimming once. */
  lemma TrimIdempotent(s: string)
    ensures Trim(Trim(s)) == Trim(s)
  {
    var r := Trim(s);
    TrimUnique([], r, []);
    assert [] + r + [] == r;
  }

  // ---------------------------------------------------------------------------
  // Replace
  // ---------------------------------------------------------------------------

  /** `pat` occurs in `s` starting at index `i`. */
  predicate MatchAt(s: string, pat: string, i: int)
  {
    0 <= i && i + |pat| <= |s| && s[i..i + |pat|] == pat
  }

  predicate Occurs(s: string, pat: string)
  {
    exists i | 0 <= i <= |s| :: MatchAt(s, pat, i)
  }

  /** Rust's `str::replace`: every leftmost, non-overlapping occurrence of
      `pat`, scanning left to right, becomes `rep`; one pass only. */
  function ReplaceAll(s: string, pat: string, rep: string): string
    requires |pat| > 0
    decreases |s|
  {
    if |s| < |pat| then s
    else if s[..|pat|] == pat then rep + ReplaceAll(s[|pat|..], pat, rep)
    else [s[0]] + ReplaceAll(s[1..], pat, rep)
  }

  /** Text without the pattern comes back unchanged. */
  lemma {:induction false} ReplaceAllAbsent(s: string, pat: string, rep: string)
    requires |pat| > 0
    requires !Occurs(s, pat)
    ensures ReplaceAll(s, pat, rep) == s
    decreases |s|
  {
    if |s| >= |pat| {
      assert !MatchAt(s, pat, 0);
      forall i | 0 <= i <= |s| - 1 && MatchAt(s[1..], pat, i)
        ensures MatchAt(s, pat, i + 1)
      {
        assert s[i + 1..i + 1 + |pat|] == s[1..][i..i + |pat|];
      }
      ReplaceAllAbsent(s[1..], pat, rep);
      assert [s[0]] + s[1..] == s;
    }
  }

  /** A character outside the pattern at the front survives in place. */
  lemma ReplaceAllKeepsFirst(c: char, s: string, pat: string, rep: string)
    requires |pat| > 0 && c !in pat
    ensures ReplaceAll([c] + s, pat, rep) == [c] + ReplaceAll(s, pat, rep)
  {
    var t := [c] + s;
    assert t[1..] == s;
    if |t| >= |pat| {
      assert t[..|pat|][0] == c;
    } else {
      assert |s| < |pat|;
    }
  }

  /** A character outside the pattern at the end survives in place: no match
      can straddle it. */
  lemma {:induction false} ReplaceAllKeepsLast(s: string, c: char, pat: string, rep: string)
    requires |pat| > 0 && c !in pat
    ensures ReplaceAll(s + [c], pat, rep) == ReplaceAll(s, pat, rep) + [c]
    decreases |s|
  {
    var t := s + [c];
    if |s| < |pat| {
      if |t| == |pat| {
        assert t[..|pat|][|s|] == c;
        assert pat[|s|] in pat;
        assert t[..|pat|] != pat;
        assert [t[0]] + t[1..] == t;
      }
    } else if s[..|pat|] == pat {
      assert t[..|pat|] == pat;
      assert t[|pat|..] == s[|pat|..] + [c];
      ReplaceAllKeepsLast(s[|pat|..], c, pat, rep);
    } else {
      assert s[..|pat|] == t[..|pat|];
      assert t[1..] == s[1..] + [c];
      ReplaceAllKeepsLast(s[1..], c, pat, rep);
    }
  }

  /** The pattern at the front is replaced, and the scan resumes after it. */
  lemma ReplaceAllAtFront(pat: string, s: string, rep: string)
    requires |pat| > 0
    ensures ReplaceAll(pat + s, pat, rep) == rep + ReplaceAll(s, pat, rep)
  {
    var t := pat + s;
    assert t[..|pat|] == pat && t[|pat|..] == s;
  }

  /** No occurrence of `pat` starts inside `u`, not even one that runs on
      into a `pat` written right after it: such a following `pat` is then
      the leftmost occurrence. */
  predicate NoMatchStartsIn(u: string, pat: string)
    requires |pat| > 0
  {
    !Occurs(u + pat[..|pat| - 1], pat)
  }

  /** Text without the pattern's first character holds no start of it. */
  lemma NoMatchWithoutHead(u: string, pat: string)
    requires |pat| > 0 && pat[0] !in u
    ensures NoMatchStartsIn(u, pat)
  {
    var w := u + pat[..|pat| - 1];
    forall i | 0 <= i <= |w|
      ensures !MatchAt(w, pat, i)
    {
      if i + |pat| <= |w| {
        assert w[i..i + |pat|][0] == w[i] == u[i];
      }
    }
  }

  /** Text without the pattern's first character does not hold it. */
  lemma AbsentWithoutHead(s: string, pat: string)
    requires |pat| > 0 && pat[0] !in s
    ensures !Occurs(s, pat)
  {
    forall i | 0 <= i <= |s|
      ensures !MatchAt(s, pat, i)
    {
      if i + |pat| <= |s| {
        assert s[i..i + |pat|][0] == s[i];
      }
    }
  }

  /** Dropping the first character shifts every occurrence one place left. */
  lemma MatchAfterFirst(s: string, pat: string, j: int)
    requires |s| > 0 && 0 <= j
    ensures MatchAt(s[1..], pat, j) <==> MatchAt(s, pat, j + 1)
  {
    if j + |pat| <= |s| - 1 {
      assert s[1..][j..j + |pat|] == s[j + 1..j + 1 + |pat|];
    }
  }

  /** With no start of `pat` in `u`, none is in its tail either, and none
      at its front. */
  lemma NoMatchStartsInRest(u: string, pat: string)
    requires |pat| > 0 && |u| > 0 && NoMatchStartsIn(u, pat)
    ensures NoMatchStartsIn(u[1..], pat)
    ensures (u + pat[..|pat| - 1])[..|pat|] != pat
  {
    var w := u + pat[..|pat| - 1];
    assert !MatchAt(w, pat, 0);
    assert w[1..] == u[1..] + pat[..|pat| - 1];
    forall i | 0 <= i <= |w| - 1
      ensures !MatchAt(w[1..], pat, i)
    {
      MatchAfterFirst(w, pat, i);
    }
  }

  /** The leftmost occurrence is replaced, everything before it kept, and
      the scan resumes after it. */
  lemma {:induction false} ReplaceAllFirstMatch(u: string, pat: string, v: string, rep: string)
    requires |pat| > 0 && NoMatchStartsIn(u, pat)
    ensures ReplaceAll(u + pat + v, pat, rep) == u + rep + ReplaceAll(v, pat, rep)
    decreases |u|
  {
    if u == [] {
      assert u + pat + v == pat + v;
      ReplaceAllAtFront(pat, v, rep);
    } else {
      var n := |pat|;
      var t := u + pat + v;
      NoMatchStartsInRest(u, pat);
      assert t[..n] == (u + pat[..n - 1])[..n];
      assert t[1..] == u[1..] + pat + v;
      ReplaceAllFirstMatch(u[1..], pat, v, rep);
      assert [u[0]] + (u[1..] + rep + ReplaceAll(v, pat, rep)) == u + rep + ReplaceAll(v, pat, rep);
    }
  }

  /** Text with an occurrence splits at its leftmost one, so
      `ReplaceAllAbsent` and `ReplaceAllFirstMatch` together fix ReplaceAll
      on every input. */
  lemma {:induction false} LeftmostMatch(s: string, pat: string) returns (i: nat)
    requires |pat| > 0 && Occurs(s, pat)
    ensures MatchAt(s, pat, i) && NoMatchStartsIn(s[..i], pat)
    decreases |s|
  {
    var n := |pat|;
    if MatchAt(s, pat, 0) {
      i := 0;
      assert |s[..0] + pat[..n - 1]| == n - 1;
    } else {
      var k :| 0 <= k <= |s| && MatchAt(s, pat, k);
      MatchAfterFirst(s, pat, k - 1);
      var j := LeftmostMatch(s[1..], pat);
      MatchAfterFirst(s, pat, j);
      NoMatchStartsInFront(s, pat, j);
      i := j + 1;
    }
  }

  /** A first character that starts no occurrence extends a stretch where
      none starts, up to an occurrence. */
  lemma NoMatchStartsInFront(s: string, pat: string, j: nat)
    requires |pat| > 0 && |s| > 0 && !MatchAt(s, pat, 0)
    requires MatchAt(s, pat, j + 1) && NoMatchStartsIn(s[1..][..j], pat)
    ensures NoMatchStartsIn(s[..j + 1], pat)
  {
    var n := |pat|;
    var w := s[..j + 1] + pat[..n - 1];
    assert w[1..] == s[1..][..j] + pat[..n - 1];
    assert pat[..n - 1] == s[j + 1..j + n];
    assert w == s[..j + n];
    assert w[..n] == s[..n];
    forall m | 0 <= m <= |w|
      ensures !MatchAt(w, pat, m)
    {
      if m > 0 {
        MatchAfterFirst(w, pat, m - 1);
      }
    }
  }
}

=== FILE: wrappers.dfy ===
/** Optional values, as Rust's `Option`. */
module Wrappers {

  datatype Option<+T> = None | Some(value: T) {

    /** The carried value, or `default` when absent (Rust's `unwrap_or`). */
    function GetOr(default: T): (r: T)
      ensures Some? ==> r == value
      ensures None? ==> r == default
    {
      match this
      case Some(v) => v
      case None => default
    }
  }
}
